=== FILE: README.md ===
# rain-game, modelled in Dafny

A model of the discrete core of a two-player falling-words typing game. The
game is written in Rust and played over TCP. It has four parts:

- **The wire protocol** (`Enums`). Each control message (Waiting, GameStart,
  GameOver, Attacked) travels as its one-byte discriminant. Decoding an
  unknown byte is a panic, modelled as `None`.
- **The two falling-word engines.**
  - `Engine` (src/game/game.rs) is the whole-word engine. Keys go into a
    buffer, and a newline removes the newest word whose text equals the
    buffer.
  - `RainEngine` (raingame/src/game/game.rs) is the per-keystroke engine.
    Every key strips the matching first char of every word on screen.
  - Each engine has its word record (`Words`, `RainWords`).
  - `Tempo` holds the timing both engines share.
  - The wall clock, the random generator and the vocabulary are injected as a
    `Draw`. Positions are reals.
- **The relay server** (`Server`). Each cycle accepts two clients and greets
  each with Waiting. It then runs two handlers wired through two bounded
  channels of capacity 8 (`Channel`). Whatever one handler enqueues is what the
  other dequeues. The pair of handlers is a transition system: any ready
  handler may take one select iteration (`Step`). An invariant (`Inv`) is
  proved to hold in every reachable state. It says:
  - each client socket carries Waiting, GameStart and then a prefix of the
    messages the opponent relayed, in order;
  - a handler that stopped has shut its socket, closed and drained its channel
    and dropped its sender.

  In the model, a relay to a channel the opponent has already closed drops
  the message. After a dropped Attacked the handler goes on to deliver what
  the opponent left queued; a dropped GameOver still ends the handler, whose
  teardown drains that queue. The source panics there, and that panic brings
  the server down (see Findings). The invariant is proved for both versions
  of the step.
- **The client's decisions** (`Client`):
  - the wait for GameStart;
  - the network manager's select table, proved equal to the server's;
  - one iteration of the game loop: the reaction to the manager's message,
    key classification, and which messages are sent;
  - the result line written to the log.

`Select` is the event and decision vocabulary that the server handler and the
client manager share. `Text` holds UTF-8 byte length (Rust's `String::len`)
and decimal formatting. `Seqs` holds subsequences. `Options` is the option
type.

## Model

| member | source | states |
|---|---|---|
| Enums.Decode | src/enums.rs:28-37 | decoding succeeds exactly on bytes below 4 and yields the message whose byte it is; every other byte is rejected (the panic) |
| Enums.DecodeEncode | src/enums.rs:21-34 | decode(encode(m)) == m for every message: each message is sent as its declared discriminant |
| Enums.EncodeDecode | src/enums.rs:28-34 | every byte below 4 decodes, and the message re-encodes to that byte |
| Enums.EncodeInjective | src/enums.rs:21-26 | distinct messages have distinct bytes |
| Enums.StateCodeInjective | src/enums.rs:10-18 | the six game-state discriminants are pairwise distinct |
| Enums.ColorCodeInjective | src/enums.rs:1-8 | the five colour discriminants are pairwise distinct |
| Words.New | src/game/word.rs:11-13 | the getters of a new word return exactly the arguments |
| Words.SetY | src/game/word.rs:23-25 | `set_y` replaces the row; x, text and colour are unchanged |
| Words.RunKeepsIdentity | src/game/word.rs:10-36 | after any sequence of public calls, x, text and colour are the constructed ones and the row is the last one set (getters change nothing) |
| RainWords.New | raingame/src/game/word.rs:8-10 | the getters of a new word return exactly the arguments |
| RainWords.SetY | raingame/src/game/word.rs:20-22 | `set_y` replaces only the row |
| RainWords.EditText | raingame/src/game/word.rs:28-30 | an edit through `get_text_mut` changes only the text |
| RainWords.RunKeepsColumn | raingame/src/game/word.rs:1-31 | after any sequence of public calls, x is the constructed column, the row is the last one set and the text is the last one written |
| Tempo.NextElapsed | src/game/game.rs:75-79 | the elapsed time grows by exactly 100 ms below the 60 s limit and stays put at or past it |
| Tempo.TickFits | src/game/game.rs:75-79 | a counter that is a multiple of 100 ms within the limit stays so after a tick |
| Text.ByteLen | src/game/game.rs:53 | `String::len` counts UTF-8 bytes: between 1 and 4 per char, and 0 only for the empty string |
| Text.IntToStringRoundTrip | src/bin/client.rs:352 | the decimal text of an integer reads back as that integer |
| Engine.NewGame | src/game/game.rs:27-40 | a new game has no words, score 0, an empty buffer and a zero clock |
| Engine.SpawnWord | src/game/game.rs:85-95 | a spawn appends exactly one white word at row 0 to the back iff fewer than 5 words are active and the interval has elapsed; the older words are untouched; the list never exceeds 5 |
| Engine.MoveWords | src/game/game.rs:97-101 | every word moves down by 0.1 and keeps its text |
| Engine.MatchIndex | src/game/game.rs:50-58 | the newest-first scan finds the last index whose text equals the buffer, and finds none iff no word's text equals it |
| Engine.ScanNewestFirst | src/game/game.rs:50-58 | the source's reverse loop with `break` returns that index |
| Engine.Commit | src/game/game.rs:48-59 | on a newline the buffer is empty afterwards; a word is removed iff some word's text equals the buffer, and then it is the newest such word and the score rises by its byte length; otherwise words and score are unchanged |
| Engine.HandleInput | src/game/game.rs:48-63 | no key changes nothing; a newline commits; any other char is appended to the buffer |
| Engine.Fall | src/game/game.rs:65-73 | every word moves by `speed_factor`; the kept words are all above the bottom row, the dropped ones all at or below it; both keep their relative order, and together they account for every word |
| Engine.FallLoop | src/game/game.rs:65-73 | the source's reverse loop with removal by index leaves the kept words and subtracts the byte lengths of the dropped ones |
| Engine.Update | src/game/game.rs:42-83 | the clock advances 100 ms unless the limit was reached, and then completion is false and the speed is kept; before the limit the speed becomes 0.1 + score/1000 for the new score; completion needs a newline; the buffer is cleared by a newline, extended by a char, and left unchanged by no key; the list never exceeds 5 |
| Engine.UpdatePreservesValid | src/game/game.rs:42-94 | at most 5 words, and a clock that is a multiple of 100 ms within 60 s, are kept by every update |
| Engine.UpdateCompletedIff | src/game/game.rs:46-82 | update returns true iff the limit had not been reached, the key was a newline, and some word on screen after the spawn had exactly the buffer's text |
| Engine.UpdateScore | src/game/game.rs:42-83 | the score moves by the match gain minus the byte length of every word that crossed the bottom row; the words left are the fall pass's survivors; with no key the score cannot rise |
| Engine.EntryGain | src/game/game.rs:43-63 | spawning, moving and handling the key change the score only by the matched word's length |
| Engine.Backspace | src/game/game.rs:129-131 | `backspace` drops the last char of the buffer and does nothing on an empty buffer |
| Engine.BackspaceUndoesTyping | src/game/game.rs:129-131 | backspace after typing a non-newline char restores the game |
| Engine.PlayClock | src/game/game.rs:121-123 | over any run of updates the clock reads min(60 s, start + 100 ms per call), so it never decreases and `is_game_over` holds from the limit on |
| Engine.GameOverIff | src/game/game.rs:121-123 | after any run, `is_game_over` holds iff the run reached 60 s, and from then on it stays true |
| RainEngine.NewGame | raingame/src/game/game.rs:29-42 | a new game has no words, score 0, `word_len` 0 and a zero clock |
| RainEngine.SpawnWord | raingame/src/game/game.rs:85-97 | a spawn records the drawn `word_len` and appends one word at row 0 iff fewer than 5 words are active and the interval has elapsed; otherwise `word_len` is unchanged |
| RainEngine.MoveWords | raingame/src/game/game.rs:99-103 | every word moves down by 0.1 and keeps its text |
| RainEngine.Fall | raingame/src/game/game.rs:50-60 | expired words are dropped and the survivors keep their relative order |
| RainEngine.TypeChar | raingame/src/game/game.rs:62-67 | the key strips the first char of exactly those words whose text is non-empty and starts with it; positions are unchanged |
| RainEngine.Emptied | raingame/src/game/game.rs:68-71 | no key empties no word |
| RainEngine.Update | raingame/src/game/game.rs:44-83 | the clock advances 100 ms up to the limit; at the limit completion is false, the game stays over and the speed is kept; before the limit the speed becomes 0.1 + score/1000 for the new score; completion needs a key |
| RainEngine.Pass | raingame/src/game/game.rs:50-73 | the pass never adds words; with no key it empties no word, reports no completion and cannot raise the score |
| RainEngine.PassIsFallThenType | raingame/src/game/game.rs:50-72 | the interleaved pass equals dropping the expired words first and then applying the key to each survivor; dropped words cost their remaining length, and each emptied word earns `word_len` |
| RainEngine.UpdatePreservesValid | raingame/src/game/game.rs:44-97 | at most 5 words, a well-formed clock and `word_len` in [3, 10] are kept by every update whose draw the generator can produce |
| RainEngine.UpdateOutcome | raingame/src/game/game.rs:44-83 | the words left are the survivors with the key applied; the score moves by `word_len` per emptied word minus the remaining length of each dropped word; completion iff a word was emptied before the limit; only expiry removes words |
| RainEngine.UpdateWithoutKey | raingame/src/game/game.rs:50-72 | with no key no text changes, and the score changes only through expiries |
| RainEngine.TypeCharWithoutKey | raingame/src/game/game.rs:62-65 | no key leaves every word as it was |
| RainEngine.PassLoop | raingame/src/game/game.rs:50-73 | the source's reverse loop, with `continue` after a removal, computes the same words, score change and completion flag as the pass |
| RainEngine.PlayClock | raingame/src/game/game.rs:75-82 | over any run of updates the clock reads min(60 s, start + 100 ms per call) |
| RainEngine.GameOverIff | raingame/src/game/game.rs:123-125 | after any run, `is_game_over` holds iff the run reached 60 s, and from then on it stays true |
| Channel.Send | src/bin/server.rs:122-127 | a send fails iff the receiver is closed, waits iff the buffer is full, and otherwise appends at the back |
| Channel.Recv | src/bin/server.rs:143-164 | `recv` yields the oldest message iff one is buffered, and yields none only when the buffer is empty and no message can come |
| Channel.CloseAndDrain | src/bin/server.rs:173-174 | after close-and-drain the channel is empty, refuses sends and reports its end |
| Channel.DropSender | src/bin/server.rs:169-180 | a dropped sender keeps what is buffered, and an empty channel then reports its end |
| Channel.TryRecv | src/bin/client.rs:217-240 | `try_recv` is ready iff `recv` would yield, and disconnected iff `recv` would report the end |
| Server.HandlerStep | src/bin/server.rs:110-166 | an unknown byte panics; a client's Attacked or GameOver is enqueued, and GameOver also exits; the opponent's Attacked or GameOver is written, and GameOver also exits; other known messages are ignored; a read error or a closed channel exits |
| Server.AcceptPlayers | src/bin/server.rs:50-62 | a cycle accepts exactly the first two connections, in order, and writes Waiting to each |
| Server.StartMatch | src/bin/server.rs:36-42 | a match starts on two fresh channels of capacity 8, each socket having received Waiting and then GameStart |
| Server.Teardown | src/bin/server.rs:169-177 | after the loop the handler's inbound channel is closed and drained, its sender dropped and its socket shut |
| Server.StartMatchInv | src/bin/server.rs:36-103 | a freshly started match satisfies the invariant |
| Server.Swap | src/bin/server.rs:39-42 | the cross-wiring is symmetric: exchanging the handlers and their channels keeps the invariant |
| Server.SwapStep | src/bin/server.rs:68-74 | handler 2 behaves exactly as handler 1 does on the mirrored pair |
| Server.Step | src/bin/server.rs:110-177 | a handler crashes exactly when its client sends an unknown byte; a step never changes the opponent's phase |
| Server.StepAsWritten | src/bin/server.rs:120-127 | as the source writes it, a handler also crashes when it relays to a channel its opponent has closed |
| Server.AsWrittenCrashes | src/bin/server.rs:120-124 | as written, once handler 1 has finished, an Attacked from client 2 crashes handler 2 and the server goes down |
| Server.AttackAfterGameOverCrashes | src/bin/server.rs:120-130 | that state is reached from every match start: GameOver from client 1, then Attacked from client 2 while the GameOver is still queued |
| Server.StepInv | src/bin/server.rs:110-177 | every step of either handler keeps the invariant |
| Server.SocketStepInv | src/bin/server.rs:114-139 | servicing the client socket keeps the invariant |
| Server.QueueStepInv | src/bin/server.rs:143-165 | servicing the inbound channel keeps the invariant |
| Server.TakeMid | src/bin/server.rs:143-146 | a received message is one the opponent relayed, and is the next one to deliver |
| Server.RelayMid | src/bin/server.rs:120-130 | enqueueing Attacked keeps the invariant; enqueueing GameOver keeps everything but the handler's lifecycle |
| Server.DeliverMid | src/bin/server.rs:147-158 | writing Attacked to the socket keeps the invariant; writing GameOver keeps everything but the handler's lifecycle |
| Server.TeardownInv | src/bin/server.rs:169-177 | the teardown restores the invariant for a stopped handler |
| Server.RelayIsFifo | src/bin/server.rs:122-150 | each socket receives, in order, a prefix of what the opponent's handler relayed: nothing is reordered, duplicated or invented |
| Server.GameOverLeaves | src/bin/server.rs:125-130 | while both handlers run, a reported GameOver can be relayed exactly when the reporter's channel has room; it is then appended behind what is already queued, the reporting handler finishes, and its opponent is untouched |
| Server.GameOverAfterOpponentGone | src/bin/server.rs:125-130 | a GameOver reported after the opponent's handler stopped is not relayed: the corrected step finishes the handler, while the source's `expect` crashes it |
| Server.GameOverEndsMatch | src/bin/server.rs:125-158 | whatever the reporter had already queued for its opponent, once it relays GameOver behind it and finishes, the opponent's handler servicing its channel writes every queued message and then byte 2 to its client and finishes: the match ends with both handlers finished, in the invariant |
| Server.Conclude | src/bin/server.rs:79-86 | the next cycle starts only after both handlers have returned, on fresh channels and in the invariant; a panicked handler takes the server down |
| Server.OpponentGoneKeepsRunning | src/bin/server.rs:120-124 | with the corrected relay, an attack reported after the opponent finished is dropped and the handler keeps running with everything else unchanged |
| Server.AttackAfterGameOverRelays | src/bin/server.rs:120-158 | on the run that crashes the source, the corrected handler 2 still writes the queued GameOver (byte 2) to its client and finishes; the match ends in the invariant and the next cycle starts |
| Server.QueuedGameOverDelivered | src/bin/server.rs:143-158 | with a GameOver queued (so the opponent has stopped), one iteration on the channel writes the oldest queued message to the client; an Attacked keeps the handler running on the rest of the queue, and the final GameOver finishes it |
| Server.QueuedAllDelivered | src/bin/server.rs:143-158 | everything queued behind a GameOver reaches the client in order, GameOver last, and the handler then finishes, in the invariant |
| Server.StepAsWrittenInv | src/bin/server.rs:110-177 | the source's own step, panic included, keeps the invariant, so the FIFO and teardown guarantees hold for the program as written |
| Client.AwaitStart | src/bin/client.rs:63-88 | Waiting, GameOver and Attacked keep waiting; the first other read decides: GameStart starts the match, a read error aborts, an unknown byte panics |
| Client.AwaitStartStops | src/bin/client.rs:63-88 | once decided, the wait reads nothing more |
| Client.GreetingStarts | src/bin/client.rs:72-77 | a server handler's first two bytes (Waiting, GameStart) start the match after exactly two reads |
| Client.ManagerStep | src/bin/client.rs:118-170 | the server's Attacked or GameOver goes to the game, and GameOver also exits; the game's Attacked or GameOver is written to the server, and GameOver also exits; a read error or a closed channel exits; an unknown byte panics |
| Client.ManagerIsHandler | src/bin/client.rs:118-170 | the manager's table is the server handler's table, event for event |
| Client.React | src/bin/client.rs:217-240 | GameOver sets Win and ends the loop; Attacked spawns one red word; an empty channel changes nothing; a disconnected channel ends the loop |
| Client.CharOf | src/bin/client.rs:244-245 | a key code is a char iff it is a Unicode scalar value |
| Client.Classify | src/bin/client.rs:246-262 | the first matching arm wins: the erase keys, 127 and backspace, `=` or DEL pop; Enter, Send and newline commit; any other char is typed as itself; a non-char does nothing |
| Client.TypedCharsArePushed | src/bin/client.rs:258-260 | every char other than the erasing ones and newline is typed as itself |
| Client.Iterate | src/bin/client.rs:215-299 | Attacked is sent iff the state before `update` is CompleteAttackWord; GameOver is sent, and the loop ends, iff `update` returns Lose; an inbound GameOver or a closed channel ends the loop with at most the Win call made, no key handled and nothing sent; otherwise the calls are, in order, the reaction's call (if any), the key's engine call, then `update` |
| Client.KeyCalls | src/bin/client.rs:246-262 | a pop key makes `pop_input_string`, a commit key `enter_input_string`, a typed char `push_input_string` of that char, and an ignored key no call |
| Client.Play | src/bin/client.rs:215-299 | a run uses every frame until an iteration ends the loop; a run that ends has used at least one frame, and an ending first iteration uses exactly one |
| Client.PlayStops | src/bin/client.rs:215-299 | once an iteration has ended the loop, later frames change nothing |
| Client.PlaySendsRelayLog | src/bin/client.rs:264-299 | over a whole game the loop sends only Attacked and then at most one GameOver, last, after which it has ended |
| Client.ResultText | src/bin/client.rs:327-331 | Lose gives "YOU LOSE!\n", Win gives "YOU WIN!\n", anything else "ERROR\n" |
| Client.LogLine | src/bin/client.rs:352 | the log line starts with the result text, then the tag ` with a score of `, then the score as an optional minus sign and decimal digits |
| Client.LogLineRoundTrip | src/bin/client.rs:352 | the log line `<result> with a score of <score>` reads back to the same result and score |

## Findings

| source | as written | input that shows it | evidently intended | confidence | as-written member | corrected member |
|---|---|---|---|---|---|---|
| src/bin/server.rs:120-124 | a handler relays its client's Attacked with `send(..).await.expect(..)`, which panics when the opponent's handler has already finished and closed its receiver; `handler.await.unwrap()` (line 81) re-raises the panic and the server process exits | client 1 reports GameOver; handler 1 relays it and finishes; client 2, not yet told, reports Attacked, and handler 2's `select!` services the socket before the queued GameOver | the message `"Opponent channel should be opened"` shows the channel was expected to stay open; a relay whose opponent is gone should be dropped, so that the GameOver the opponent left queued still reaches this client (which then wins), and the server should go on to the next cycle | not executed; the race needs `select!` to pick the socket branch, which its random branch order allows | Server.AttackAfterGameOverCrashes | Server.AttackAfterGameOverRelays |

## Left out

- Screen, terminal and sockets: ncurses drawing, `getch`, `napms`, socket
  reads and writes, and `yield_now` are I/O. A socket read is a `Read` value.
  A write is an appended byte, and its failure is not modelled.
- Scheduling: tokio's `select!` fairness and task scheduling. The pair of
  handlers is a nondeterministic transition system with no fairness.
- Blocking sends: a send on a full channel is not enabled (`Ready`). It is not
  held as a suspended task. This hides a deadlock: in the source, a handler
  whose `select!` took the socket branch and then waits in `send(..).await`
  cannot service its own inbound channel, so two handlers relaying into two
  full channels wait on each other forever. In the model that handler's relay
  is simply not enabled, and it may take its queue branch instead.
- Floating point: positions, `speed_factor` and `get_time_left` are f32 in the
  source. Here they are reals, and f32 rounding is not modelled.
- Engine.Update: the score is an `i32` in the source. Its wrap-around on
  overflow is not modelled, because a 60 s round cannot approach 2^31 points.
- RainEngine.Update: same as above for the score's `i32` width.
- Engine.SpawnWord: the column is whatever the generator drew. The range
  `0..width - len` it is drawn from is not constrained.
- Engine.SpawnWord: src/game/game.rs:91 calls `Word::new` with three
  arguments, but src/game/word.rs:11 also takes a colour. The model gives
  spawned words White, the colour with discriminant 0.
- RainEngine.SpawnWord: same as above for the column. `word_len` is drawn
  independently of the word's text, as the source does, so completion scores
  the latest drawn `word_len`, not the completed word's length.
- Randomness, clock and vocabulary: `rand`, `Instant::elapsed` and the
  vocabulary file are injected through `Draw`. `VocabGenerator` is not part
  of this model.
- Client.Iterate: the client's engine calls (`enter_input_string`,
  `pop_input_string`, `spawn_word(WordColor)`, `set_game_state`, the
  zero-argument `update`, `get_life`, `get_attack_string`) belong to an engine
  whose source is not part of this model. The iteration records which calls
  it makes, and takes the states they return as inputs. The loop's `send`
  results are ignored, as in the source.
- Server.Step: a relay that finds the opponent's channel closed drops the
  message, and the loop goes on or exits as its decision says. The source
  panics there. `Server.StepAsWritten` keeps the source's behaviour, and the
  Findings section explains why the model uses the corrected step.
- Server.Teardown: on a panic the source drops the handler task's channel ends. The
  messages still queued are discarded; the model counts them as taken, as on
  a clean teardown.
- Server.Teardown: `socket.shutdown().await.unwrap()` (src/bin/server.rs:177)
  can fail, for instance after a connection reset. The panic would be
  re-raised at line 81 and take the server down. The model always shuts the
  socket cleanly, because socket errors are outside the model.
- Engine.SpawnWord: `gen_range(0.0, width - len)` (src/game/game.rs:89)
  panics when the word is not narrower than the screen. The model appends
  the word regardless, because the column range is not modelled.
- RainEngine.SpawnWord: the same `gen_range` panic
  (raingame/src/game/game.rs:89) when `word_len` is not below the width is
  not modelled either.
- Server.StartMatch: the GameStart write's `expect` (a client gone before its
  handler starts) is not modelled.
- Server.Conclude takes the next cycle's clients as a parameter. The source binds a
  new listener every cycle and drops the old one when the cycle ends, so a
  third client that connected during a match is not carried into the next
  match. This follows the code.
- CLI parsing, the log file's name and timestamp, and `write_game_result`'s
  filesystem calls are I/O. Only the line's text is modelled.
- The `DEBUG` prints are output only.
- Client.ManagerStep: the manager's `send(..).await.unwrap()` to the game
  task and its socket writes can fail; those failures are not modelled.
- Engine getters: `get_score`, `get_input_string` and `is_game_over` read the
  game's fields (`IsGameOver` for the last). `draw_words` draws on the screen.
- The vocabulary's word is any string. The source draws it from a list read
  from a file, which it never checks for emptiness; `generate`
  (raingame/src/game/vocab.rs:29) panics on an empty list, and that panic is
  not modelled.
- src/main.rs and raingame/src/main.rs are ncurses drivers. raingame/src/main.rs
  also carries its own variant of the game, which is not modelled separately.
  It differs from raingame/src/game/game.rs in two ways: its `spawn_word`
  builds `word_len` random lowercase letters instead of taking a vocabulary
  word, and its screen is fixed at 80 by 24. The injected `Draw` admits any
  text and length, so those spawns are among the modelled ones. examples/test-play-thread.rs is a concurrency demo.
- src/lib.rs and src/game/game_state.rs hold only declarations.
- Life, the attack word, losing at zero life and spawning without overlap
  appear in neither engine's source, so none of them is modelled.

=== FILE: channel.dfy ===
/** A bounded tokio mpsc channel of control messages with one sender and one
    receiver: FIFO, blocking when full, and a receiver-side close after which
    the backlog can still be drained. */
module Channel {
  import opened Enums

  datatype Chan = Chan(items: seq<Message>, cap: nat, senderAlive: bool, receiverOpen: bool)

  /** `mpsc::channel(cap)`. */
  function Fresh(cap: nat): (c: Chan)
    ensures c.items == [] && c.cap == cap && c.senderAlive && c.receiverOpen
  {
    Chan([], cap, true, true)
  }

  predicate Bounded(c: Chan) {
    |c.items| <= c.cap
  }

  datatype SendOutcome = Sent(c: Chan) | Blocked | SendError

  /** `send(m).await`: fails once the receiver is closed, waits while the
      buffer is full, and otherwise appends `m` at the back. */
  function Send(c: Chan, m: Message): (r: SendOutcome)
    ensures r.SendError? <==> !c.receiverOpen
    ensures r.Blocked? <==> c.receiverOpen && |c.items| >= c.cap
    ensures r.Sent? ==> r.c == c.(items := c.items + [m])
    ensures Bounded(c) && r.Sent? ==> Bounded(r.c)
  {
    if !c.receiverOpen then SendError
    else if |c.items| >= c.cap then Blocked
    else Sent(c.(items := c.items + [m]))
  }

  datatype RecvOutcome = Got(m: Message, c: Chan) | Pending | Ended

  /** `recv().await`: the oldest buffered message first; `None` only once the
      buffer is empty and no message can come any more. */
  function Recv(c: Chan): (r: RecvOutcome)
    ensures r.Got? <==> |c.items| > 0
    ensures r.Got? ==> r.m == c.items[0] && r.c == c.(items := c.items[1..])
    ensures r.Ended? <==> |c.items| == 0 && (!c.senderAlive || !c.receiverOpen)
  {
    if |c.items| > 0 then Got(c.items[0], c.(items := c.items[1..]))
    else if !c.senderAlive || !c.receiverOpen then Ended
    else Pending
  }

  /** `close()` followed by `while let Some(_) = recv().await {}`: further
      sends fail and the backlog is consumed. */
  function CloseAndDrain(c: Chan): (r: Chan)
    ensures !r.receiverOpen && r.items == [] && r.cap == c.cap && r.senderAlive == c.senderAlive
    ensures Recv(r).Ended?
  {
    c.(receiverOpen := false, items := [])
  }

  /** The sender is dropped when its task ends. */
  function DropSender(c: Chan): (r: Chan)
    ensures !r.senderAlive && r.items == c.items && r.receiverOpen == c.receiverOpen
    ensures |c.items| == 0 ==> Recv(r).Ended?
  {
    c.(senderAlive := false)
  }

  datatype TryOutcome = Ready(m: Message, c: Chan) | Empty | Disconnected

  /** `try_recv()`: never waits; `Disconnected` once the buffer is empty and
      no message can come any more. */
  function TryRecv(c: Chan): (r: TryOutcome)
    ensures r.Ready? <==> Recv(c).Got?
    ensures r.Ready? ==> r.m == Recv(c).m && r.c == Recv(c).c
    ensures r.Disconnected? <==> Recv(c).Ended?
  {
    match Recv(c)
    case Got(m, c') => Ready(m, c')
    case Ended => Disconnected
    case Pending => Empty
  }
}

=== FILE: client.dfy ===
/** The client's decisions (src/bin/client.rs): the wait for the match to
    start, the network manager's select loop, and one iteration of the game
    loop — how it reacts to the manager's messages, how it classifies a key,
    which messages it sends — and the result it reports at the end.  The
    engine the game loop drives is seen only through the calls it receives
    and the states those calls return. */
module Client {
  import opened Options
  import opened Enums
  import opened Text
  import opened Select
  import opened Channel
  import Server

  // ---------------------------------------------------------------------
  // Waiting for the match

  /** How the wait for GameStart ends: the match starts, the server went
      away first, an unknown byte made decoding panic, or the reads seen so
      far decide nothing yet. */
  datatype Opening = Started | Aborted | Panicked | Undecided

  /** The outcome and how many reads it took. */
  datatype Wait = Wait(opening: Opening, used: nat)

  /** A read the wait loop passes over: Waiting, GameOver or Attacked. */
  predicate Ignored(r: Read) {
    r.Byte? && Decode(r.b).Some? && Decode(r.b).value != GameStart
  }

  /** The loop before the manager and game tasks are spawned: the first read
      that is not passed over decides. */
  function AwaitStart(rs: seq<Read>): (w: Wait)
    ensures w.used <= |rs|
    ensures w.opening == Undecided ==> w.used == |rs|
    ensures w.opening != Undecided ==> w.used >= 1
    ensures forall i :: 0 <= i < w.used && (w.opening == Undecided || i < w.used - 1) ==> Ignored(rs[i])
    ensures w.opening == Started ==> rs[w.used - 1] == Byte(Encode(GameStart))
    ensures w.opening == Aborted ==> rs[w.used - 1] == ReadErr
    ensures w.opening == Panicked ==> rs[w.used - 1].Byte? && Decode(rs[w.used - 1].b).None?
  {
    if |rs| == 0 then Wait(Undecided, 0)
    else
      match rs[0]
      case ReadErr => Wait(Aborted, 1)
      case Byte(b) =>
        match Decode(b)
        case None => Wait(Panicked, 1)
        case Some(m) =>
          if m == GameStart then Wait(Started, 1)
          else
            var w := AwaitStart(rs[1..]);
            Wait(w.opening, w.used + 1)
  }

  /** Once decided, the wait reads nothing more: later reads change neither
      the outcome nor the count. */
  lemma {:induction false} AwaitStartStops(rs: seq<Read>, more: seq<Read>)
    requires AwaitStart(rs).opening != Undecided
    ensures AwaitStart(rs + more) == AwaitStart(rs)
  {
    assert (rs + more)[0] == rs[0];
    if Ignored(rs[0]) {
      assert (rs + more)[1..] == rs[1..] + more;
      AwaitStartStops(rs[1..], more);
    }
  }

  /** The reads of a byte stream that arrives without error. */
  function ReadsOf(bs: seq<u8>): (rs: seq<Read>)
    ensures |rs| == |bs|
    ensures forall i :: 0 <= i < |bs| ==> rs[i] == Byte(bs[i])
  {
    if |bs| == 0 then [] else [Byte(bs[0])] + ReadsOf(bs[1..])
  }

  /** What a server handler writes first — Waiting, then GameStart — starts
      the match after exactly those two reads, whatever follows. */
  lemma GreetingStarts(rest: seq<Read>)
    ensures AwaitStart(ReadsOf(Server.Greeting()) + rest) == Wait(Started, 2)
  {
    var g := ReadsOf(Server.Greeting());
    DecodeEncode(Waiting);
    DecodeEncode(GameStart);
    assert AwaitStart(g) == Wait(Started, 2) by {
      assert g[1..] == [Byte(Encode(GameStart))];
    }
    AwaitStartStops(g, rest);
  }

  // ---------------------------------------------------------------------
  // The network manager

  /** One iteration of `spawn_manager`'s select loop.  A server byte is
      forwarded to the game channel (Attacked, or GameOver and stop), a game
      message is written to the server (Attacked, or GameOver and stop), a
      read error or a closed game channel stops it, and an unknown byte
      makes `Message::from` panic. */
  function ManagerStep(e: Event): (d: Decision)
    ensures d.flow == Panic <==> e.SocketByte? && Decode(e.b).None?
    ensures d.action.Enqueue? <==> e.SocketByte? && Decode(e.b).Some? && Relayed(Decode(e.b).value)
    ensures d.action.WriteSocket? <==> e.ChanMsg? && Relayed(e.m)
    ensures d.flow == Exit <==>
      || e.SocketErr? || e.ChanClosed?
      || e == SocketByte(Encode(GameOver)) || e == ChanMsg(GameOver)
  {
    match e
    case SocketByte(b) =>
      (match Decode(b)
       case None => Decision(Idle, Panic)
       case Some(Attacked) => Decision(Enqueue(Attacked), Continue)
       case Some(GameOver) => Decision(Enqueue(GameOver), Exit)
       case Some(_) => Decision(Idle, Continue))
    case SocketErr => Decision(Idle, Exit)
    case ChanMsg(m) =>
      if m == Attacked then Decision(WriteSocket(m), Continue)
      else if m == GameOver then Decision(WriteSocket(m), Exit)
      else Decision(Idle, Continue)
    case ChanClosed => Decision(Idle, Exit)
  }

  /** The manager and a server handler decide every event alike. */
  lemma ManagerIsHandler(e: Event)
    ensures ManagerStep(e) == Server.HandlerStep(e)
  {
    if e.SocketByte? && Decode(e.b).Some? {
      EncodeDecode(e.b);
    }
  }

  // ---------------------------------------------------------------------
  // The game loop

  /** The calls the game loop makes on its engine. */
  datatype EngineCall =
    | SetGameState(s: GameState)
    | SpawnWord(color: WordColor)
    | PopInput
    | EnterInput
    | PushInput(c: char)
    | UpdateGame

  /** What the loop does with the outcome of `try_recv` on the manager's
      channel: the engine call it makes, if any, and whether it leaves the
      loop. */
  datatype Reaction = Reaction(call: Option<EngineCall>, stop: bool)

  /** The opponent lost (GameOver): this player wins and the loop ends; an
      attack (Attacked) drops a red word; nothing waiting goes on; a closed
      channel ends the loop. */
  function React(t: TryOutcome): (r: Reaction)
    ensures r.stop <==> t.Disconnected? || (t.Ready? && t.m == GameOver)
    ensures r.call == Some(SetGameState(Win)) <==> t.Ready? && t.m == GameOver
    ensures r.call == Some(SpawnWord(Red)) <==> t.Ready? && t.m == Attacked
    ensures r.call.None? <==> !(t.Ready? && Relayed(t.m))
  {
    match t
    case Ready(m, _) =>
      if m == GameOver then Reaction(Some(SetGameState(Win)), true)
      else if m == Attacked then Reaction(Some(SpawnWord(Red)), false)
      else Reaction(None, false)
    case Empty => Reaction(None, false)
    case Disconnected => Reaction(None, true)
  }

  /** What `getch` returned: one of the curses key codes the loop names, or
      any other code (`-1` when no key is waiting).  The named keys are kept
      distinct from the other codes. */
  datatype Key = KeyBackspace | KeyDc | KeyEnter | KeySend | Code(n: int)

  /** `char::from_u32(input as u32)`: a Unicode scalar value, or nothing for
      a negative code, a surrogate or a code past U+10FFFF. */
  function CharOf(n: int): (c: Option<char>)
    ensures c.Some? <==> (0 <= n < 0xD800 || 0xE000 <= n < 0x11_0000)
    ensures c.Some? ==> c.value as int == n
  {
    if 0 <= n < 0xD800 || 0xE000 <= n < 0x11_0000 then Some(n as char) else None
  }

  /** The characters that erase rather than type. */
  predicate ErasingChar(c: char) {
    c == '\U{8}' || c == '=' || c == '\U{7F}'
  }

  /** The input buffer edit a key asks for. */
  datatype KeyAction = Pop | Commit | Push(c: char) | Ignore

  /** The key match, first arm first: the erase keys, code 127 and the
      erasing characters pop; Enter, Send and a newline commit; any other
      character is typed; a code that is no character does nothing. */
  function Classify(k: Key): (a: KeyAction)
    ensures a == Pop <==>
      k == KeyBackspace || k == KeyDc || k == Code(127)
      || (k.Code? && CharOf(k.n).Some? && ErasingChar(CharOf(k.n).value))
    ensures a == Commit <==>
      k == KeyEnter || k == KeySend
      || (k.Code? && k.n != 127 && CharOf(k.n) == Some('\n'))
    ensures a.Push? <==>
      k.Code? && k.n != 127 && CharOf(k.n).Some?
      && !ErasingChar(CharOf(k.n).value) && CharOf(k.n).value != '\n'
    ensures a.Push? ==> Some(a.c) == CharOf(k.n)
  {
    match k
    case KeyBackspace => Pop
    case KeyDc => Pop
    case KeyEnter => Commit
    case KeySend => Commit
    case Code(n) =>
      if n == 127 then Pop
      else
        match CharOf(n)
        case None => Ignore
        case Some(c) =>
          if ErasingChar(c) then Pop
          else if c == '\n' then Commit
          else Push(c)
  }

  /** Every character other than the erasing ones and the newline is typed
      as itself when its code arrives. */
  lemma TypedCharsArePushed(c: char)
    requires !ErasingChar(c) && c != '\n'
    ensures Classify(Code(c as int)) == Push(c)
  {
    assert c as int != 127;
    assert CharOf(c as int).value == c;
  }

  /** What the engine calls of one iteration returned: `enter_input_string`
      if the key committed, and `update`. */
  datatype Frame = Frame(inbound: TryOutcome, key: Key, entered: GameState, updated: GameState)

  /** One iteration: the engine calls made, the messages sent to the
      manager, the loop's `game_state` afterwards, and whether it left the
      loop. */
  datatype Turn = Turn(calls: seq<EngineCall>, sent: seq<Message>, state: GameState, done: bool)

  /** The engine call a key action makes: `pop_input_string`,
      `enter_input_string` or `push_input_string(c)`; none for a code that
      is no character. */
  function KeyCalls(a: KeyAction): (calls: seq<EngineCall>)
    ensures |calls| <= 1
    ensures calls == [PopInput] <==> a == Pop
    ensures calls == [EnterInput] <==> a == Commit
    ensures a.Push? <==> |calls| == 1 && calls[0].PushInput?
    ensures a.Push? ==> calls == [PushInput(a.c)]
    ensures calls == [] <==> a == Ignore
  {
    match a
    case Pop => [PopInput]
    case Commit => [EnterInput]
    case Push(c) => [PushInput(c)]
    case Ignore => []
  }

  /** The state the attack test sees: what committing returned, or the
      state carried from the last iteration. */
  function BeforeUpdate(gs: GameState, f: Frame): GameState {
    if Classify(f.key) == Commit then f.entered else gs
  }

  /** One pass of `spawn_game`'s loop from `game_state` = `gs`. */
  function Iterate(gs: GameState, f: Frame): (t: Turn)
    ensures t.done <==> React(f.inbound).stop || f.updated == Lose
    ensures t.state == if React(f.inbound).stop then gs else f.updated
    ensures Attacked in t.sent <==>
      !React(f.inbound).stop && BeforeUpdate(gs, f) == CompleteAttackWord
    ensures GameOver in t.sent <==> !React(f.inbound).stop && f.updated == Lose
    ensures forall i :: 0 <= i < |t.sent| ==> Relayed(t.sent[i])
    ensures |t.sent| <= 2 && (|t.sent| == 2 ==> t.sent == [Attacked, GameOver])
    ensures UpdateGame in t.calls <==> !React(f.inbound).stop
    ensures React(f.inbound).stop ==>
      && t.calls == (if React(f.inbound).call.Some? then [React(f.inbound).call.value] else [])
      && t.sent == []
    ensures !React(f.inbound).stop ==>
      t.calls == (if React(f.inbound).call.Some? then [React(f.inbound).call.value] else [])
        + KeyCalls(Classify(f.key)) + [UpdateGame]
  {
    var r := React(f.inbound);
    var first := if r.call.Some? then [r.call.value] else [];
    if r.stop then Turn(first, [], gs, true)
    else
      var attack := if BeforeUpdate(gs, f) == CompleteAttackWord then [Attacked] else [];
      var lose := if f.updated == Lose then [GameOver] else [];
      Turn(first + KeyCalls(Classify(f.key)) + [UpdateGame], attack + lose, f.updated, f.updated == Lose)
  }

  /** The game loop over a sequence of frames, up to the iteration that
      leaves it: every message sent and how many frames were used. */
  datatype Session = Session(sent: seq<Message>, state: GameState, done: bool, used: nat)

  function Play(gs: GameState, frames: seq<Frame>): (s: Session)
    ensures s.used <= |frames|
    ensures !s.done ==> s.used == |frames|
    ensures s.done ==> s.used >= 1
    ensures |frames| > 0 && Iterate(gs, frames[0]).done ==> s.done && s.used == 1
    decreases |frames|
  {
    if |frames| == 0 then Session([], gs, false, 0)
    else
      var t := Iterate(gs, frames[0]);
      if t.done then Session(t.sent, t.state, true, 1)
      else
        var s := Play(t.state, frames[1..]);
        Session(t.sent + s.sent, s.state, s.done, s.used + 1)
  }

  /** Once an iteration has ended the loop, later frames are never looked
      at: the session is the same whatever follows. */
  lemma {:induction false} PlayStops(gs: GameState, frames: seq<Frame>, more: seq<Frame>)
    requires Play(gs, frames).done
    ensures Play(gs, frames + more) == Play(gs, frames)
    decreases |frames|
  {
    var t := Iterate(gs, frames[0]);
    if !t.done {
      PlayStops(t.state, frames[1..], more);
    }
    PlayExtend(gs, frames, more);
  }

  /** Extending the frames extends the run after its first iteration only:
      an ending first iteration ignores the rest, and otherwise the rest of
      the run is what decides. */
  lemma PlayExtend(gs: GameState, frames: seq<Frame>, more: seq<Frame>)
    requires |frames| > 0
    ensures var t := Iterate(gs, frames[0]);
      && (t.done ==> Play(gs, frames + more) == Play(gs, frames))
      && (!t.done && Play(t.state, frames[1..] + more) == Play(t.state, frames[1..]) ==>
            Play(gs, frames + more) == Play(gs, frames))
  {
    var all := frames + more;
    assert all[0] == frames[0] && all[1..] == frames[1..] + more;
  }

  /** What a game loop sends its manager is what a server handler accepts
      as a relay log: only Attacked and GameOver, GameOver at most once and
      last; and a loop that sent GameOver has ended. */
  lemma {:induction false} PlaySendsRelayLog(gs: GameState, frames: seq<Frame>)
    ensures Server.RelayLog(Play(gs, frames).sent)
    ensures Server.EndsWithGameOver(Play(gs, frames).sent) ==> Play(gs, frames).done
    decreases |frames|
  {
    if |frames| > 0 {
      var t := Iterate(gs, frames[0]);
      if !t.done {
        var s := Play(t.state, frames[1..]);
        PlaySendsRelayLog(t.state, frames[1..]);
        assert forall i :: 0 <= i < |t.sent| ==> t.sent[i] == Attacked;
        AttacksThenLog(t.sent, s.sent);
      }
    }
  }

  /** A run of attacks followed by a relay log is a relay log. */
  lemma AttacksThenLog(a: seq<Message>, b: seq<Message>)
    requires forall i :: 0 <= i < |a| ==> a[i] == Attacked
    requires Server.RelayLog(b)
    ensures Server.RelayLog(a + b)
    ensures Server.EndsWithGameOver(a + b) ==> Server.EndsWithGameOver(b)
  {
    var ab := a + b;
    assert forall i :: |a| <= i < |ab| ==> ab[i] == b[i - |a|];
  }

  // ---------------------------------------------------------------------
  // The result

  /** The line shown when the loop ends, from the engine's final state. */
  function ResultText(gs: GameState): (s: string)
    ensures gs == Lose ==> s == "YOU LOSE!\n"
    ensures gs == Win ==> s == "YOU WIN!\n"
    ensures gs != Lose && gs != Win ==> s == "ERROR\n"
  {
    match gs
    case Lose => "YOU LOSE!\n"
    case Win => "YOU WIN!\n"
    case _ => "ERROR\n"
  }

  const ScoreTag: string := " with a score of "

  /** The text written to the result log: the result text, the fixed tag,
      then the score in decimal. */
  function LogLine(gs: GameState, score: int): (line: string)
    ensures |line| > |ResultText(gs) + ScoreTag|
    ensures line[..|ResultText(gs)|] == ResultText(gs)
    ensures line[|ResultText(gs)|..|ResultText(gs) + ScoreTag|] == ScoreTag
    ensures IntText(line[|ResultText(gs) + ScoreTag|..])
  {
    ResultText(gs) + ScoreTag + IntToString(score)
  }

  /** Reads a log line back into its result text and score. */
  function ParseLog(line: string): (r: Option<(string, int)>)
    ensures r.Some? ==> r.value.0 in {"YOU LOSE!\n", "YOU WIN!\n", "ERROR\n"}
  {
    match ReadAfter(line, "YOU LOSE!\n" + ScoreTag)
    case Some(n) => Some(("YOU LOSE!\n", n))
    case None =>
      match ReadAfter(line, "YOU WIN!\n" + ScoreTag)
      case Some(n) => Some(("YOU WIN!\n", n))
      case None =>
        match ReadAfter(line, "ERROR\n" + ScoreTag)
        case Some(n) => Some(("ERROR\n", n))
        case None => None
  }

  /** The integer after `prefix`, when the line is `prefix` and an integer. */
  function ReadAfter(line: string, prefix: string): (r: Option<int>)
    ensures r.Some? <==> |prefix| <= |line| && line[..|prefix|] == prefix && IntText(line[|prefix|..])
  {
    if |prefix| <= |line| && line[..|prefix|] == prefix && IntText(line[|prefix|..])
    then Some(ParseInt(line[|prefix|..]))
    else None
  }

  /** The log line names the result and the score, and both can be read
      back from it. */
  lemma LogLineRoundTrip(gs: GameState, score: int)
    ensures ParseLog(LogLine(gs, score)) == Some((ResultText(gs), score))
  {
    var line := LogLine(gs, score);
    var digits := IntToString(score);
    IntToStringRoundTrip(score);
    var r := ResultText(gs);
    assert line[..|r + ScoreTag|] == r + ScoreTag;
    assert line[|r + ScoreTag|..] == digits;
    if gs != Lose {
      assert line[4] != ("YOU LOSE!\n" + ScoreTag)[4];
    }
    if gs != Lose && gs != Win {
      assert line[0] != ("YOU WIN!\n" + ScoreTag)[0];
    }
  }
}

=== FILE: engine.dfy ===
/** The whole-word engine of the networked client (src/game/game.rs): words
    spawn at the top, fall one tick at a time, and are removed either when
    the player enters their exact text or when they cross the bottom row.

    The wall clock, the random generator and the vocabulary are injected:
    each `update` receives a `Draw` saying whether the spawn interval has
    elapsed and, if a word is spawned, its text and column.  Positions are
    reals; the f32 rounding of the source is not modelled. */
module Engine {
  import opened Options
  import opened Enums
  import opened Text
  import opened Seqs
  import opened Tempo
  import opened Words

  /** At most this many words are on screen (`MAX_WORDS`). */
  const MaxWords: nat := 5

  datatype Game = Game(
    score: int,
    words: seq<Word>,      // oldest first; `push_back` appends
    elapsedMs: nat,
    speed: real,           // `speed_factor`
    height: int,
    width: int,
    input: string)         // the input buffer

  /** The clock's and the random generator's answers for one spawn attempt:
      whether more than 2 s passed since the last spawn, the vocabulary word
      and the column. */
  datatype Draw = Draw(due: bool, text: string, x: real)

  /** A game after one step, and whether that step completed a word. */
  datatype Entered = Entered(game: Game, matched: bool)
  datatype Tick = Tick(game: Game, completed: bool)
  /** The fall pass splits the moved words into those still on screen (in
      their original order) and those that crossed the bottom row. */
  datatype FallResult = FallResult(kept: seq<Word>, dropped: seq<Word>)

  /** What every reachable game satisfies. */
  predicate Valid(g: Game) {
    |g.words| <= MaxWords && ClockOk(g.elapsedMs)
  }

  predicate IsGameOver(g: Game) {
    g.elapsedMs >= TimeLimitMs
  }

  /** `Game::new`. */
  function NewGame(height: int, width: int): (g: Game)
    ensures Valid(g) && !IsGameOver(g)
    ensures g.words == [] && g.score == 0 && g.input == [] && g.elapsedMs == 0
  {
    Game(0, [], 0, 0.0, height, width, [])
  }

  predicate Expired(w: Word, height: int) {
    w.y >= height as real
  }

  /** Total `String::len` of the texts of some words. */
  function LostBytes(ws: seq<Word>): nat {
    if |ws| == 0 then 0 else ByteLen(ws[0].text) + LostBytes(ws[1..])
  }

  /** `spawn_word`: appends one word at row 0 when fewer than `MaxWords` are
      active and the interval has elapsed; otherwise changes nothing. */
  function SpawnWord(g: Game, d: Draw): (r: Game)
    ensures r == g.(words := r.words)
    ensures |r.words| == |g.words| || |r.words| == |g.words| + 1
    ensures |r.words| == |g.words| + 1 <==> |g.words| < MaxWords && d.due
    ensures r.words[..|g.words|] == g.words
    ensures |r.words| > |g.words| ==> r.words[|g.words|] == New(d.x, 0.0, d.text, White)
    ensures |g.words| <= MaxWords ==> |r.words| <= MaxWords
  {
    if |g.words| < MaxWords && d.due then
      g.(words := g.words + [New(d.x, 0.0, d.text, White)])
    else
      g
  }

  /** Every word moved down by `dy`. */
  function MoveAll(ws: seq<Word>, dy: real): (r: seq<Word>)
    ensures |r| == |ws|
    ensures forall i :: 0 <= i < |ws| ==> r[i] == SetY(ws[i], ws[i].y + dy)
  {
    if |ws| == 0 then [] else [SetY(ws[0], ws[0].y + dy)] + MoveAll(ws[1..], dy)
  }

  /** `move_words`: the fixed 0.1 step. */
  function MoveWords(g: Game): (r: Game)
    ensures r == g.(words := r.words)
    ensures |r.words| == |g.words|
    ensures forall i :: 0 <= i < |g.words| ==>
      r.words[i].y == g.words[i].y + Drift && r.words[i].text == g.words[i].text
  {
    g.(words := MoveAll(g.words, Drift))
  }

  /** The newest-first scan: the last index whose text equals `buf`. */
  function MatchIndex(ws: seq<Word>, buf: string): (r: Option<nat>)
    ensures r.Some? ==> r.value < |ws| && ws[r.value].text == buf
    ensures r.Some? ==> forall j :: r.value < j < |ws| ==> ws[j].text != buf
    ensures r.None? <==> forall j :: 0 <= j < |ws| ==> ws[j].text != buf
    decreases |ws|
  {
    if |ws| == 0 then None
    else if ws[|ws| - 1].text == buf then Some(|ws| - 1)
    else MatchIndex(ws[..|ws| - 1], buf)
  }

  /** Enter: removes at most one word, the newest whose text is exactly the
      buffer, scores its length, and clears the buffer either way. */
  function Commit(g: Game): (r: Entered)
    ensures r.game.input == []
    ensures r.game == g.(words := r.game.words, score := r.game.score, input := [])
    ensures r.matched <==> exists i :: 0 <= i < |g.words| && g.words[i].text == g.input
    ensures r.matched ==> exists i :: (0 <= i < |g.words| && g.words[i].text == g.input
      && (forall j :: i < j < |g.words| ==> g.words[j].text != g.input)
      && r.game.words == g.words[..i] + g.words[i + 1..])
    ensures r.matched ==> r.game.score == g.score + ByteLen(g.input)
    ensures !r.matched ==> r.game.words == g.words && r.game.score == g.score
  {
    match MatchIndex(g.words, g.input)
    case Some(i) =>
      Entered(g.(words := g.words[..i] + g.words[i + 1..],
                 score := g.score + ByteLen(g.words[i].text),
                 input := []), true)
    case None =>
      Entered(g.(input := []), false)
  }

  /** The key handling inside `update`: newline commits, any other char is
      appended to the buffer, no key changes nothing. */
  function HandleInput(g: Game, input: Option<char>): (r: Entered)
    ensures r.matched ==> input == Some('\n')
    ensures input.None? ==> r == Entered(g, false)
    ensures input == Some('\n') ==> r == Commit(g)
    ensures input.Some? && input.value != '\n' ==>
      r == Entered(g.(input := g.input + [input.value]), false)
  {
    match input
    case None => Entered(g, false)
    case Some(c) =>
      if c == '\n' then Commit(g) else Entered(g.(input := g.input + [c]), false)
  }

  /** The fall pass: each word moves by `speed`; those at or below `height`
      are dropped, the rest keep their relative order. */
  function Fall(ws: seq<Word>, speed: real, height: int): (r: FallResult)
    ensures forall i :: 0 <= i < |r.kept| ==> !Expired(r.kept[i], height)
    ensures forall i :: 0 <= i < |r.dropped| ==> Expired(r.dropped[i], height)
    ensures IsSubseq(r.dropped, MoveAll(ws, speed))
    ensures IsSubseq(r.kept, MoveAll(ws, speed))
    ensures |r.kept| + |r.dropped| == |ws|
    decreases |ws|
  {
    if |ws| == 0 then FallResult([], [])
    else
      var w := SetY(ws[0], ws[0].y + speed);
      var rest := Fall(ws[1..], speed, height);
      assert MoveAll(ws, speed) == [w] + MoveAll(ws[1..], speed);
      if Expired(w, height) then FallResult(rest.kept, [w] + rest.dropped)
      else FallResult([w] + rest.kept, rest.dropped)
  }

  /** The first three stages of `update`: spawn, move, handle the key. */
  function Entry(g: Game, d: Draw, input: Option<char>): Entered {
    HandleInput(MoveWords(SpawnWord(g, d)), input)
  }

  /** `Game::update(input)`: spawn, move, handle the key, run the fall pass,
      then account for 100 ms unless the time limit was already reached.
      The result says whether a word was completed in this call. */
  function Update(g: Game, d: Draw, input: Option<char>): (r: Tick)
    ensures r.game.height == g.height && r.game.width == g.width
    ensures r.game.elapsedMs == if IsGameOver(g) then g.elapsedMs else g.elapsedMs + TickMs
    ensures IsGameOver(g) ==> !r.completed && r.game.speed == g.speed
    ensures !IsGameOver(g) ==> r.game.speed == SpeedFor(r.game.score)
    ensures r.completed ==> input == Some('\n')
    ensures input.None? ==> r.game.input == g.input
    ensures input == Some('\n') ==> r.game.input == []
    ensures input.Some? && input.value != '\n' ==> r.game.input == g.input + [input.value]
    ensures |g.words| <= MaxWords ==> |r.game.words| <= MaxWords
  {
    var entered := Entry(g, d, input);
    var e := entered.game;
    var f := Fall(e.words, e.speed, e.height);
    var settled := e.(words := f.kept, score := e.score - LostBytes(f.dropped));
    if settled.elapsedMs >= TimeLimitMs then
      Tick(settled, false)
    else
      Tick(settled.(elapsedMs := NextElapsed(settled.elapsedMs), speed := SpeedFor(settled.score)),
           entered.matched)
  }

  /** `backspace`: drops the last char of the buffer; no-op when empty. */
  function Backspace(g: Game): (r: Game)
    ensures r == g.(input := r.input)
    ensures |g.input| > 0 ==> r.input + [g.input[|g.input| - 1]] == g.input
    ensures |g.input| == 0 ==> r == g
  {
    if |g.input| == 0 then g else g.(input := g.input[..|g.input| - 1])
  }

  /** The score `update` gains on a newline: the buffer's byte length if
      some word on screen after the spawn has exactly that text. */
  function Gain(g: Game, d: Draw, input: Option<char>): nat {
    var ws := SpawnWord(g, d).words;
    if input == Some('\n') && exists i :: 0 <= i < |ws| && ws[i].text == g.input
    then ByteLen(g.input) else 0
  }

  /** `update` keeps the invariant: at most five words, and the elapsed time
      a multiple of 100 ms that never passes the limit. */
  lemma UpdatePreservesValid(g: Game, d: Draw, input: Option<char>)
    requires Valid(g)
    ensures Valid(Update(g, d, input).game)
  {
    TickFits(g.elapsedMs);
  }

  /** `update` reports completion exactly when the time limit was not yet
      reached, the key was a newline, and a word on screen (after the spawn)
      had exactly the buffer's text. */
  lemma UpdateCompletedIff(g: Game, d: Draw, input: Option<char>)
    ensures Update(g, d, input).completed <==>
      && !IsGameOver(g)
      && input == Some('\n')
      && exists i :: 0 <= i < |SpawnWord(g, d).words| && SpawnWord(g, d).words[i].text == g.input
  {
    EntryMatchedIff(g, d, input);
    assert Entry(g, d, input).game.elapsedMs == g.elapsedMs;
  }

  /** The first three stages match a word exactly when the key is a newline
      and a word on screen after the spawn has the buffer's text; moving
      the words changes no text. */
  lemma EntryMatchedIff(g: Game, d: Draw, input: Option<char>)
    ensures Entry(g, d, input).matched <==>
      && input == Some('\n')
      && exists i :: 0 <= i < |SpawnWord(g, d).words| && SpawnWord(g, d).words[i].text == g.input
  {
    var s := SpawnWord(g, d);
    var m := MoveWords(s);
    assert forall i :: 0 <= i < |m.words| ==> m.words[i].text == s.words[i].text;
    if input == Some('\n') {
      if exists i :: 0 <= i < |s.words| && s.words[i].text == g.input {
        var i :| 0 <= i < |s.words| && s.words[i].text == g.input;
        assert m.words[i].text == m.input;
      }
    }
  }

  /** Score accounting of one `update`: plus the matched word's length,
      minus the length of every word that crossed the bottom row; the words
      left are exactly those the fall pass kept. */
  lemma UpdateScore(g: Game, d: Draw, input: Option<char>)
    ensures var e := Entry(g, d, input).game;
      var f := Fall(e.words, e.speed, e.height);
      && Update(g, d, input).game.words == f.kept
      && Update(g, d, input).game.score == g.score + Gain(g, d, input) - LostBytes(f.dropped)
    ensures input.None? ==> Update(g, d, input).game.score <= g.score
  {
    EntryGain(g, d, input);
  }

  /** The first three stages change the score only by the match gain. */
  lemma EntryGain(g: Game, d: Draw, input: Option<char>)
    ensures Entry(g, d, input).game.score == g.score + Gain(g, d, input)
  {
    EntryMatchedIff(g, d, input);
  }

  /** Backspace undoes a typed (non-newline) character. */
  lemma BackspaceUndoesTyping(g: Game, c: char)
    requires c != '\n'
    ensures Backspace(HandleInput(g, Some(c)).game) == g
  {
    var t := HandleInput(g, Some(c)).game;
    assert t.input[..|t.input| - 1] == g.input;
  }

  /** The source's fall loop: indices from the back, each word moved in
      place and removed by index when it reaches the bottom row. */
  method FallLoop(ws: seq<Word>, speed: real, height: int) returns (words: seq<Word>, lost: nat)
    ensures words == Fall(ws, speed, height).kept
    ensures lost == LostBytes(Fall(ws, speed, height).dropped)
  {
    words := ws;
    lost := 0;
    var i := |ws|;
    while i > 0
      invariant 0 <= i <= |ws| && i <= |words|
      invariant words[..i] == ws[..i]
      invariant words[i..] == Fall(ws[i..], speed, height).kept
      invariant lost == LostBytes(Fall(ws[i..], speed, height).dropped)
    {
      i := i - 1;
      FallStep(ws, words, i, speed, height);
      var w := SetY(words[i], words[i].y + speed);
      if Expired(w, height) {
        lost := lost + ByteLen(w.text);
        words := words[..i] + words[i + 1..];
      } else {
        words := words[i := w];
      }
    }
  }

  /** One iteration of `FallLoop`: with the words before index `i + 1`
      untouched and the kept suffix already computed, removing or moving
      word `i` extends the computed suffix to index `i`. */
  lemma FallStep(ws: seq<Word>, words: seq<Word>, i: nat, speed: real, height: int)
    requires i < |ws| && i < |words|
    requires words[..i + 1] == ws[..i + 1]
    requires words[i + 1..] == Fall(ws[i + 1..], speed, height).kept
    ensures var w := SetY(words[i], words[i].y + speed);
      var f := Fall(ws[i..], speed, height);
      var rest := Fall(ws[i + 1..], speed, height);
      Expired(w, height) ==>
        && (words[..i] + words[i + 1..])[..i] == ws[..i]
        && (words[..i] + words[i + 1..])[i..] == f.kept
        && LostBytes(f.dropped) == ByteLen(w.text) + LostBytes(rest.dropped)
    ensures var w := SetY(words[i], words[i].y + speed);
      var f := Fall(ws[i..], speed, height);
      var rest := Fall(ws[i + 1..], speed, height);
      !Expired(w, height) ==>
        && words[i := w][..i] == ws[..i]
        && words[i := w][i..] == f.kept
        && f.dropped == rest.dropped
  {
    FallAt(ws, i, speed, height);
    assert words[..i] == ws[..i] && words[i] == ws[i] by {
      assert words[..i + 1][..i] == words[..i] && ws[..i + 1][..i] == ws[..i];
      assert words[..i + 1][i] == words[i];
    }
    var w := SetY(words[i], words[i].y + speed);
    if Expired(w, height) {
      LostBytesCons(w, Fall(ws[i + 1..], speed, height).dropped);
      RemoveAt(words, i);
    } else {
      ReplaceAt(words, i, w);
    }
  }

  /** The fall pass over `ws[i..]` is word `i`'s fate followed by the pass
      over `ws[i + 1..]`. */
  lemma FallAt(ws: seq<Word>, i: nat, speed: real, height: int)
    requires i < |ws|
    ensures var w := SetY(ws[i], ws[i].y + speed);
      var rest := Fall(ws[i + 1..], speed, height);
      Expired(w, height) ==>
        Fall(ws[i..], speed, height).kept == rest.kept && Fall(ws[i..], speed, height).dropped == [w] + rest.dropped
    ensures var w := SetY(ws[i], ws[i].y + speed);
      var rest := Fall(ws[i + 1..], speed, height);
      !Expired(w, height) ==>
        Fall(ws[i..], speed, height).kept == [w] + rest.kept && Fall(ws[i..], speed, height).dropped == rest.dropped
  {
    assert ws[i..][0] == ws[i] && ws[i..][1..] == ws[i + 1..];
    FallCons(ws[i..], speed, height);
  }

  /** A dropped word adds its byte length to the loss. */
  lemma LostBytesCons(w: Word, ws: seq<Word>)
    ensures LostBytes([w] + ws) == ByteLen(w.text) + LostBytes(ws)
  {
    assert ([w] + ws)[1..] == ws;
  }

  /** One step of the fall pass's definition. */
  lemma FallCons(ws: seq<Word>, speed: real, height: int)
    requires |ws| > 0
    ensures var w := SetY(ws[0], ws[0].y + speed);
      var rest := Fall(ws[1..], speed, height);
      Expired(w, height) ==>
        Fall(ws, speed, height).kept == rest.kept && Fall(ws, speed, height).dropped == [w] + rest.dropped
    ensures var w := SetY(ws[0], ws[0].y + speed);
      var rest := Fall(ws[1..], speed, height);
      !Expired(w, height) ==>
        Fall(ws, speed, height).kept == [w] + rest.kept && Fall(ws, speed, height).dropped == rest.dropped
  {
  }

  /** The source's newest-first scan with `break` on the first exact match. */
  method ScanNewestFirst(ws: seq<Word>, buf: string) returns (found: Option<nat>)
    ensures found == MatchIndex(ws, buf)
  {
    var i := |ws|;
    while i > 0
      invariant 0 <= i <= |ws|
      invariant MatchIndex(ws, buf) == MatchIndex(ws[..i], buf)
    {
      i := i - 1;
      assert ws[..i + 1][..i] == ws[..i];
      if ws[i].text == buf {
        return Some(i);
      }
    }
    return None;
  }

  /** One tick's injected inputs: the spawn draw and the key, if any. */
  datatype Step = Step(draw: Draw, key: Option<char>)

  /** A run of `update` calls. */
  function Play(g: Game, steps: seq<Step>): Game
    decreases |steps|
  {
    if |steps| == 0 then g else Play(Update(g, steps[0].draw, steps[0].key).game, steps[1..])
  }

  /** Over any run the invariant holds and the clock reads exactly 100 ms per
      call, capped at the limit: it never goes back and never passes 60 s. */
  lemma {:induction false} PlayClock(g: Game, steps: seq<Step>)
    requires Valid(g)
    ensures Valid(Play(g, steps))
    ensures Play(g, steps).elapsedMs == Min(TimeLimitMs, g.elapsedMs + TickMs * |steps|)
    decreases |steps|
  {
    if |steps| > 0 {
      var g1 := Update(g, steps[0].draw, steps[0].key).game;
      UpdatePreservesValid(g, steps[0].draw, steps[0].key);
      PlayClock(g1, steps[1..]);
    }
  }

  /** `is_game_over` holds after a run exactly when the run reached 60 s:
      it becomes true after the 600th tick and stays true. */
  lemma GameOverIff(g: Game, steps: seq<Step>)
    requires Valid(g)
    ensures IsGameOver(Play(g, steps)) <==> g.elapsedMs + TickMs * |steps| >= TimeLimitMs
  {
    PlayClock(g, steps);
  }
}

=== FILE: enums.dfy ===
/** The shared enumerations of the game: control messages on the wire, the
    client's game states and the word colours, each with its declared
    discriminant. */
module Enums {
  import opened Options

  /** An unsigned byte, as carried by the one-byte wire protocol. */
  newtype u8 = x: int | 0 <= x < 256

  /** A control message; one byte on the wire in both directions. */
  datatype Message = Waiting | GameStart | GameOver | Attacked

  /** The declared discriminant (`msg as u8`). */
  function Encode(m: Message): (b: u8)
    ensures b < 4
  {
    match m
    case Waiting => 0
    case GameStart => 1
    case GameOver => 2
    case Attacked => 3
  }

  /** `From<u8>` for Message.  The source panics on any other byte; here that
      is `None`, and each caller decides what the panic means for it. */
  function Decode(b: u8): (r: Option<Message>)
    ensures r.Some? <==> b < 4
    ensures r.Some? ==> Encode(r.value) == b
  {
    match b
    case 0 => Some(Waiting)
    case 1 => Some(GameStart)
    case 2 => Some(GameOver)
    case 3 => Some(Attacked)
    case _ => None
  }

  /** Decoding the encoding of any message gives the message back. */
  lemma DecodeEncode(m: Message)
    ensures Decode(Encode(m)) == Some(m)
  {
  }

  /** Every byte below 4 decodes, and re-encodes to itself. */
  lemma EncodeDecode(b: u8)
    requires b < 4
    ensures Decode(b).Some? && Encode(Decode(b).value) == b
  {
  }

  /** The four discriminants are distinct, so encoding is injective. */
  lemma EncodeInjective(m1: Message, m2: Message)
    ensures Encode(m1) == Encode(m2) ==> m1 == m2
  {
    DecodeEncode(m1);
    DecodeEncode(m2);
  }

  /** The state the client engine reports after each step. */
  datatype GameState = StartGame | CompleteWord | CompleteAttackWord | Lose | InProgress | Win

  function StateCode(s: GameState): (n: nat)
    ensures n <= 5
  {
    match s
    case StartGame => 0
    case CompleteWord => 1
    case CompleteAttackWord => 2
    case Lose => 3
    case InProgress => 4
    case Win => 5
  }

  /** The GameState discriminants are pairwise distinct. */
  lemma StateCodeInjective(s1: GameState, s2: GameState)
    ensures StateCode(s1) == StateCode(s2) ==> s1 == s2
  {
  }

  /** The colour a word is drawn in; its discriminant is the ncurses colour pair. */
  datatype WordColor = White | Black | Yellow | Red | Green

  function ColorCode(c: WordColor): (n: nat)
    ensures n <= 4
  {
    match c
    case White => 0
    case Black => 1
    case Yellow => 2
    case Red => 3
    case Green => 4
  }

  /** The WordColor discriminants are pairwise distinct. */
  lemma ColorCodeInjective(c1: WordColor, c2: WordColor)
    ensures ColorCode(c1) == ColorCode(c2) ==> c1 == c2
  {
  }
}

=== FILE: options.dfy ===
/** The optional value used wherever the program can fail without a value
    (an unknown wire byte, an empty channel, no matching word). */
module Options {

  datatype Option<+T> = None | Some(value: T)
}

=== FILE: rain_engine.dfy ===
/** The per-keystroke engine (raingame/src/game/game.rs): every key press
    is compared with the first remaining char of each word on screen, and a
    word whose text runs out scores the length drawn at the latest spawn.

    As in the whole-word engine, the clock, the random generator and the
    vocabulary are injected through a `Draw`, and positions are reals. */
module RainEngine {
  import opened Options
  import opened Text
  import opened Seqs
  import opened Tempo
  import opened RainWords

  const MaxWords: nat := 5
  /** `gen_range(MIN_WORD_LEN, MAX_WORD_LEN + 1)` draws from [3, 10]. */
  const MinWordLen: nat := 3
  const MaxWordLen: nat := 10

  datatype Game = Game(
    score: int,
    words: seq<Word>,      // oldest first
    wordLen: nat,          // `word_len`, drawn at the latest spawn (0 before any)
    elapsedMs: nat,
    speed: real,           // `speed_factor`
    height: int,
    width: int)

  /** The clock's and the random generator's answers for one spawn attempt:
      whether more than 2 s passed since the last spawn, the drawn
      `word_len`, the column and the vocabulary word.  The text is drawn
      independently of `word_len`. */
  datatype Draw = Draw(due: bool, len: nat, x: real, text: string)

  datatype Tick = Tick(game: Game, completed: bool)
  datatype FallResult = FallResult(kept: seq<Word>, dropped: seq<Word>)

  /** What the random generator promises about a draw. */
  predicate ValidDraw(d: Draw) {
    MinWordLen <= d.len <= MaxWordLen
  }

  /** What every reachable game satisfies. */
  predicate Valid(g: Game) {
    && |g.words| <= MaxWords
    && ClockOk(g.elapsedMs)
    && (g.wordLen == 0 || MinWordLen <= g.wordLen <= MaxWordLen)
  }

  predicate IsGameOver(g: Game) {
    g.elapsedMs >= TimeLimitMs
  }

  function NewGame(height: int, width: int): (g: Game)
    ensures Valid(g) && !IsGameOver(g)
    ensures g.words == [] && g.score == 0 && g.wordLen == 0 && g.elapsedMs == 0
  {
    Game(0, [], 0, 0, 0.0, height, width)
  }

  predicate Expired(w: Word, height: int) {
    w.y >= height as real
  }

  function LostBytes(ws: seq<Word>): nat {
    if |ws| == 0 then 0 else ByteLen(ws[0].text) + LostBytes(ws[1..])
  }

  /** `spawn_word`: when fewer than `MaxWords` are active and the interval
      has elapsed, records the drawn length and appends one word at row 0. */
  function SpawnWord(g: Game, d: Draw): (r: Game)
    ensures r == g.(words := r.words, wordLen := r.wordLen)
    ensures |r.words| == |g.words| || |r.words| == |g.words| + 1
    ensures |r.words| == |g.words| + 1 <==> |g.words| < MaxWords && d.due
    ensures r.words[..|g.words|] == g.words
    ensures |r.words| > |g.words| ==> r.words[|g.words|] == New(d.x, 0.0, d.text) && r.wordLen == d.len
    ensures |r.words| == |g.words| ==> r.wordLen == g.wordLen
    ensures |g.words| <= MaxWords ==> |r.words| <= MaxWords
  {
    if |g.words| < MaxWords && d.due then
      g.(wordLen := d.len, words := g.words + [New(d.x, 0.0, d.text)])
    else
      g
  }

  function MoveAll(ws: seq<Word>, dy: real): (r: seq<Word>)
    ensures |r| == |ws|
    ensures forall i :: 0 <= i < |ws| ==> r[i] == SetY(ws[i], ws[i].y + dy)
  {
    if |ws| == 0 then [] else [SetY(ws[0], ws[0].y + dy)] + MoveAll(ws[1..], dy)
  }

  /** `move_words`: the fixed 0.1 step. */
  function MoveWords(g: Game): (r: Game)
    ensures r == g.(words := r.words)
    ensures |r.words| == |g.words|
    ensures forall i :: 0 <= i < |g.words| ==>
      r.words[i].y == g.words[i].y + Drift && r.words[i].text == g.words[i].text
  {
    g.(words := MoveAll(g.words, Drift))
  }

  /** Each word moves by `speed`; those at or below `height` are dropped, the
      rest keep their relative order. */
  function Fall(ws: seq<Word>, speed: real, height: int): (r: FallResult)
    ensures forall i :: 0 <= i < |r.kept| ==> !Expired(r.kept[i], height)
    ensures forall i :: 0 <= i < |r.dropped| ==> Expired(r.dropped[i], height)
    ensures IsSubseq(r.kept, MoveAll(ws, speed))
    ensures IsSubseq(r.dropped, MoveAll(ws, speed))
    ensures |r.kept| + |r.dropped| == |ws|
    decreases |ws|
  {
    if |ws| == 0 then FallResult([], [])
    else
      var w := SetY(ws[0], ws[0].y + speed);
      var rest := Fall(ws[1..], speed, height);
      assert MoveAll(ws, speed) == [w] + MoveAll(ws[1..], speed);
      if Expired(w, height) then FallResult(rest.kept, [w] + rest.dropped)
      else FallResult([w] + rest.kept, rest.dropped)
  }

  /** The pressed key is the first remaining char of a non-empty word. */
  predicate Consumes(w: Word, input: Option<char>) {
    input.Some? && |w.text| > 0 && w.text[0] == input.value
  }

  /** The pressed key consumes the word's last remaining char. */
  predicate Empties(w: Word, input: Option<char>) {
    Consumes(w, input) && |w.text| == 1
  }

  /** The key applied to every surviving word at once. */
  function TypeChar(ws: seq<Word>, input: Option<char>): (r: seq<Word>)
    ensures |r| == |ws|
    ensures forall i :: 0 <= i < |ws| ==> r[i].x == ws[i].x && r[i].y == ws[i].y
    ensures forall i :: 0 <= i < |ws| ==>
      r[i].text == if Consumes(ws[i], input) then ws[i].text[1..] else ws[i].text
  {
    if |ws| == 0 then []
    else
      var w := ws[0];
      [if Consumes(w, input) then EditText(w, w.text[1..]) else w] + TypeChar(ws[1..], input)
  }

  /** How many of the words the key empties. */
  function Emptied(ws: seq<Word>, input: Option<char>): (n: nat)
    ensures n <= |ws|
    ensures input.None? ==> n == 0
  {
    if |ws| == 0 then 0 else (if Empties(ws[0], input) then 1 else 0) + Emptied(ws[1..], input)
  }

  /** The fate of one word in the pass: it moves by `speed`; at or below
      the bottom row it is dropped, otherwise the key is applied to it and
      `emptied` says whether that consumed its last char. */
  datatype Fate = Dropped(w: Word) | Kept(w: Word, emptied: bool)

  function FateOf(w: Word, speed: real, height: int, input: Option<char>): Fate {
    var m := SetY(w, w.y + speed);
    if Expired(m, height) then Dropped(m)
    else if Consumes(m, input) then Kept(EditText(m, m.text[1..]), |m.text| == 1)
    else Kept(m, false)
  }

  /** The words left by the pass, its net score change, and whether a word
      was emptied. */
  datatype PassResult = PassResult(words: seq<Word>, delta: int, completed: bool)

  /** The pass over the words, one fate per word, in list order.  It never
      adds a word, and without a key it completes nothing and can only lose
      points. */
  function Pass(ws: seq<Word>, speed: real, height: int, input: Option<char>, wordLen: nat): (r: PassResult)
    ensures |r.words| <= |ws|
    ensures r.completed ==> input.Some?
    ensures input.None? ==> r.delta <= 0
    decreases |ws|
  {
    if |ws| == 0 then PassResult([], 0, false)
    else
      var rest := Pass(ws[1..], speed, height, input, wordLen);
      match FateOf(ws[0], speed, height, input)
      case Dropped(m) => PassResult(rest.words, rest.delta - ByteLen(m.text), rest.completed)
      case Kept(t, e) => PassResult([t] + rest.words, rest.delta + (if e then wordLen else 0), rest.completed || e)
  }

  /** `Game::update(input)`: spawn, move, the pass, then 100 ms accounted
      unless the limit was already reached. */
  function Update(g: Game, d: Draw, input: Option<char>): (r: Tick)
    ensures r.game.height == g.height && r.game.width == g.width
    ensures r.game.elapsedMs == NextElapsed(g.elapsedMs)
    ensures IsGameOver(g) ==> !r.completed && IsGameOver(r.game) && r.game.speed == g.speed
    ensures !IsGameOver(g) ==> r.game.speed == SpeedFor(r.game.score)
    ensures r.completed ==> input.Some?
  {
    var s := MoveWords(SpawnWord(g, d));
    var p := Pass(s.words, s.speed, s.height, input, s.wordLen);
    var settled := s.(words := p.words, score := s.score + p.delta);
    if settled.elapsedMs >= TimeLimitMs then
      Tick(settled, false)
    else
      Tick(settled.(elapsedMs := NextElapsed(settled.elapsedMs), speed := SpeedFor(settled.score)),
           p.completed)
  }

  /** `word_len` added once per emptied word, summed word by word. */
  function Bonus(ws: seq<Word>, input: Option<char>, perWord: nat): nat {
    if |ws| == 0 then 0 else (if Empties(ws[0], input) then perWord else 0) + Bonus(ws[1..], input, perWord)
  }

  lemma {:induction false} BonusIsProduct(ws: seq<Word>, input: Option<char>, perWord: nat)
    ensures Bonus(ws, input, perWord) == perWord * Emptied(ws, input)
  {
    if |ws| > 0 {
      BonusIsProduct(ws[1..], input, perWord);
      var e := Emptied(ws[1..], input);
      assert perWord * ((if Empties(ws[0], input) then 1 else 0) + e)
          == (if Empties(ws[0], input) then perWord else 0) + perWord * e;
    }
  }

  /** The interleaved pass is the same as dropping the expired words first
      and then applying the key to every survivor: the survivors keep their
      order, each loses its first char when it matches the key, dropped words
      cost their remaining length, and each emptied word earns `word_len`. */
  lemma {:induction false} PassIsFallThenType(ws: seq<Word>, speed: real, height: int, input: Option<char>, wordLen: nat)
    ensures var p := Pass(ws, speed, height, input, wordLen);
      var f := Fall(ws, speed, height);
      && p.words == TypeChar(f.kept, input)
      && p.delta == Bonus(f.kept, input, wordLen) - LostBytes(f.dropped)
      && (p.completed <==> Emptied(f.kept, input) > 0)
    decreases |ws|
  {
    if |ws| > 0 {
      PassIsFallThenType(ws[1..], speed, height, input, wordLen);
      var f := Fall(ws, speed, height);
      var rest := Fall(ws[1..], speed, height);
      var m := SetY(ws[0], ws[0].y + speed);
      if Expired(m, height) {
        assert f.dropped == [m] + rest.dropped;
        assert f.dropped[1..] == rest.dropped;
      } else {
        assert f.kept == [m] + rest.kept;
        assert f.kept[1..] == rest.kept;
      }
    }
  }

  /** `update` keeps the invariant when the draw is one the generator can
      produce: at most five words, a well-formed clock, `word_len` in range. */
  lemma UpdatePreservesValid(g: Game, d: Draw, input: Option<char>)
    requires Valid(g) && ValidDraw(d)
    ensures Valid(Update(g, d, input).game)
  {
    var s := MoveWords(SpawnWord(g, d));
    PassIsFallThenType(s.words, s.speed, s.height, input, s.wordLen);
    TickFits(g.elapsedMs);
  }

  /** The spawn and move stages of `update`, and the fall pass after them. */
  function Spawned(g: Game, d: Draw): Game {
    MoveWords(SpawnWord(g, d))
  }

  function FallOf(g: Game, d: Draw): FallResult {
    var s := Spawned(g, d);
    Fall(s.words, s.speed, s.height)
  }

  /** The outcome of one `update`: the surviving words with the key applied,
      the score moved by `word_len` (of the latest spawn) per emptied word and
      down by the remaining length of every dropped word, and completion
      reported exactly when some word was emptied before the time limit.
      Only crossing the bottom row removes a word. */
  lemma UpdateOutcome(g: Game, d: Draw, input: Option<char>)
    ensures var f := FallOf(g, d);
      var r := Update(g, d, input);
      && r.game.words == TypeChar(f.kept, input)
      && r.game.score == g.score + SpawnWord(g, d).wordLen * Emptied(f.kept, input) - LostBytes(f.dropped)
      && (r.completed <==> !IsGameOver(g) && Emptied(f.kept, input) > 0)
      && |r.game.words| + |f.dropped| == |SpawnWord(g, d).words|
  {
    var s := Spawned(g, d);
    PassIsFallThenType(s.words, s.speed, s.height, input, s.wordLen);
    BonusIsProduct(FallOf(g, d).kept, input, s.wordLen);
  }

  /** With no key nothing is typed: the words are the fall pass's survivors,
      unchanged, and the score can only go down, through expiries. */
  lemma UpdateWithoutKey(g: Game, d: Draw)
    ensures var f := FallOf(g, d);
      var r := Update(g, d, None);
      && r.game.words == f.kept
      && r.game.score == g.score - LostBytes(f.dropped)
      && r.game.score <= g.score
      && !r.completed
  {
    UpdateOutcome(g, d, None);
    TypeCharWithoutKey(FallOf(g, d).kept);
  }

  /** No key, no edit. */
  lemma {:induction false} TypeCharWithoutKey(ws: seq<Word>)
    ensures TypeChar(ws, None) == ws
  {
    if |ws| > 0 {
      TypeCharWithoutKey(ws[1..]);
    }
  }

  /** The source's pass, index by index from the back: the word moves in
      place; if it reached the bottom row its length is subtracted and it is
      removed by index; otherwise a matching key removes its first char, and
      a word left empty scores `word_len`. */
  method PassLoop(ws: seq<Word>, speed: real, height: int, input: Option<char>, wordLen: nat)
    returns (words: seq<Word>, delta: int, completed: bool)
    ensures PassResult(words, delta, completed) == Pass(ws, speed, height, input, wordLen)
  {
    words := ws;
    delta := 0;
    completed := false;
    var i := |ws|;
    while i > 0
      invariant 0 <= i <= |ws| && i <= |words|
      invariant words[..i] == ws[..i]
      invariant PassResult(words[i..], delta, completed) == Pass(ws[i..], speed, height, input, wordLen)
    {
      i := i - 1;
      PassStep(ws, words, i, speed, height, input, wordLen);
      ghost var fate := FateOf(words[i], speed, height, input);
      var w := SetY(words[i], words[i].y + speed);
      if Expired(w, height) {
        assert fate == Dropped(w);
        delta := delta - ByteLen(w.text);
        if |words| > 0 {
          words := words[..i] + words[i + 1..];
        }
        continue;
      }
      if input.Some? && |w.text| > 0 && input.value == w.text[0] {
        assert fate == Kept(EditText(w, w.text[1..]), |w.text| == 1);
        w := EditText(w, w.text[1..]);
        if |w.text| == 0 {
          delta := delta + wordLen;
          completed := true;
        }
      } else {
        assert fate == Kept(w, false);
      }
      words := words[i := w];
    }
  }

  /** One iteration of `PassLoop`: with the words before index `i + 1`
      untouched, word `i`'s fate, applied in place by removal or
      assignment, extends the pass over `ws[i + 1..]` to `ws[i..]`. */
  lemma PassStep(ws: seq<Word>, words: seq<Word>, i: nat, speed: real, height: int, input: Option<char>, wordLen: nat)
    requires i < |ws| && i < |words|
    requires words[..i + 1] == ws[..i + 1]
    ensures var rest := Pass(ws[i + 1..], speed, height, input, wordLen);
      var p := Pass(ws[i..], speed, height, input, wordLen);
      match FateOf(words[i], speed, height, input)
      case Dropped(m) =>
        && (words[..i] + words[i + 1..])[..i] == ws[..i]
        && (words[..i] + words[i + 1..])[i..] == words[i + 1..]
        && p == PassResult(rest.words, rest.delta - ByteLen(m.text), rest.completed)
      case Kept(t, e) =>
        && words[i := t][..i] == ws[..i]
        && words[i := t][i..] == [t] + words[i + 1..]
        && p == PassResult([t] + rest.words, rest.delta + (if e then wordLen else 0), rest.completed || e)
  {
    PassUnfold(ws, i, speed, height, input, wordLen);
    assert words[..i] == ws[..i] && words[i] == ws[i] by {
      assert words[..i + 1][..i] == words[..i] && ws[..i + 1][..i] == ws[..i];
      assert words[..i + 1][i] == words[i];
    }
    match FateOf(words[i], speed, height, input)
    case Dropped(m) => RemoveAt(words, i);
    case Kept(t, e) => ReplaceAt(words, i, t);
  }

  /** The pass over `ws[i..]` is word `i`'s fate followed by the pass over
      `ws[i + 1..]`. */
  lemma PassUnfold(ws: seq<Word>, i: nat, speed: real, height: int, input: Option<char>, wordLen: nat)
    requires i < |ws|
    ensures var rest := Pass(ws[i + 1..], speed, height, input, wordLen);
      Pass(ws[i..], speed, height, input, wordLen) ==
        match FateOf(ws[i], speed, height, input)
        case Dropped(m) => PassResult(rest.words, rest.delta - ByteLen(m.text), rest.completed)
        case Kept(t, e) => PassResult([t] + rest.words, rest.delta + (if e then wordLen else 0), rest.completed || e)
  {
    assert ws[i..][1..] == ws[i + 1..];
  }

  /** One tick's injected inputs: the spawn draw and the key, if any. */
  datatype Step = Step(draw: Draw, key: Option<char>)

  /** A run of `update` calls. */
  function Play(g: Game, steps: seq<Step>): Game
    decreases |steps|
  {
    if |steps| == 0 then g else Play(Update(g, steps[0].draw, steps[0].key).game, steps[1..])
  }

  /** Over any run the clock reads exactly 100 ms per call, capped at the
      limit. */
  lemma {:induction false} PlayClock(g: Game, steps: seq<Step>)
    requires ClockOk(g.elapsedMs)
    ensures ClockOk(Play(g, steps).elapsedMs)
    ensures Play(g, steps).elapsedMs == Min(TimeLimitMs, g.elapsedMs + TickMs * |steps|)
    decreases |steps|
  {
    if |steps| > 0 {
      TickFits(g.elapsedMs);
      PlayClock(Update(g, steps[0].draw, steps[0].key).game, steps[1..]);
    }
  }

  /** `is_game_over` holds after a run exactly when the run reached 60 s:
      it becomes true after the 600th tick and stays true. */
  lemma GameOverIff(g: Game, steps: seq<Step>)
    requires ClockOk(g.elapsedMs)
    ensures IsGameOver(Play(g, steps)) <==> g.elapsedMs + TickMs * |steps| >= TimeLimitMs
  {
    PlayClock(g, steps);
  }
}

=== FILE: rain_words.dfy ===
/** The falling word of the single-player engine (raingame/src/game/word.rs):
    a column, a row and the text still to be typed. */
module RainWords {

  datatype Word = Word(x: real, y: real, text: string)

  /** `Word::new`: the getters return exactly what was passed in. */
  function New(x: real, y: real, text: string): (w: Word)
    ensures w.x == x && w.y == y && w.text == text
  {
    Word(x, y, text)
  }

  /** `set_y`: replaces the row and nothing else. */
  function SetY(w: Word, y: real): (r: Word)
    ensures r.y == y
    ensures r.x == w.x && r.text == w.text
  {
    w.(y := y)
  }

  /** An edit through `get_text_mut`: the text becomes `t`, the position stays. */
  function EditText(w: Word, t: string): (r: Word)
    ensures r.text == t
    ensures r.x == w.x && r.y == w.y
  {
    w.(text := t)
  }

  /** Everything the public interface lets a caller do to a word. */
  datatype Op = SetRow(y: real) | Edit(t: string) | GetX | GetY | GetText

  function Apply(w: Word, op: Op): Word {
    match op
    case SetRow(y) => SetY(w, y)
    case Edit(t) => EditText(w, t)
    case _ => w
  }

  function Run(w: Word, ops: seq<Op>): Word
    decreases |ops|
  {
    if |ops| == 0 then w else Run(Apply(w, ops[0]), ops[1..])
  }

  /** The row after the operations: the last one set, or the original. */
  function LastRow(ops: seq<Op>, y: real): real {
    if |ops| == 0 then y
    else if ops[|ops| - 1].SetRow? then ops[|ops| - 1].y
    else LastRow(ops[..|ops| - 1], y)
  }

  /** The text after the operations: the last edit, or the original. */
  function LastText(ops: seq<Op>, t: string): string {
    if |ops| == 0 then t
    else if ops[|ops| - 1].Edit? then ops[|ops| - 1].t
    else LastText(ops[..|ops| - 1], t)
  }

  lemma {:induction false} LastShift(ops: seq<Op>, w: Word)
    requires |ops| > 0
    ensures LastRow(ops, w.y) == LastRow(ops[1..], Apply(w, ops[0]).y)
    ensures LastText(ops, w.text) == LastText(ops[1..], Apply(w, ops[0]).text)
    decreases |ops|
  {
    if |ops| > 1 {
      assert ops[..|ops| - 1][1..] == ops[1..][..|ops[1..]| - 1];
      LastShift(ops[..|ops| - 1], w);
    }
  }

  /** x is never modified after construction; the row and the text are
      whatever the last `set_y` and the last edit left. */
  lemma {:induction false} RunKeepsColumn(w: Word, ops: seq<Op>)
    ensures Run(w, ops).x == w.x
    ensures Run(w, ops).y == LastRow(ops, w.y)
    ensures Run(w, ops).text == LastText(ops, w.text)
    decreases |ops|
  {
    if |ops| > 0 {
      RunKeepsColumn(Apply(w, ops[0]), ops[1..]);
      LastShift(ops, w);
    }
  }
}

=== FILE: select.dfy ===
/** The vocabulary shared by the two select loops of the program (the
    server's per-client handler and the client's network manager): what a
    loop iteration can observe, what it does, and whether it goes on. */
module Select {
  import opened Enums

  /** The outcome of `read_exact` on a one-byte buffer. */
  datatype Read = Byte(b: u8) | ReadErr

  /** The one ready source a select iteration services. */
  datatype Event =
    | SocketByte(b: u8)     // a byte arrived on the socket
    | SocketErr             // the socket read failed (or hit end of stream)
    | ChanMsg(m: Message)   // a message arrived on the inbound channel
    | ChanClosed            // the inbound channel is closed and drained

  /** What the iteration does with the event. */
  datatype Action =
    | Idle                  // ignore it
    | Enqueue(m: Message)   // send it on the outbound channel
    | WriteSocket(m: Message) // write its byte to the socket

  /** Whether the loop goes on, breaks, or the task panics (an unknown byte
      makes `Message::from` panic). */
  datatype Flow = Continue | Exit | Panic

  datatype Decision = Decision(action: Action, flow: Flow)

  /** The two messages the relay loops forward; the others are ignored. */
  predicate Relayed(m: Message) {
    m == Attacked || m == GameOver
  }

  function EventOf(r: Read): Event {
    match r
    case Byte(b) => SocketByte(b)
    case ReadErr => SocketErr
  }
}

=== FILE: seqs.dfy ===
/** Sequence facts for the word lists: a subsequence keeps the relative
    order of the elements it keeps, and removing or replacing the element
    at an index leaves the rest where the source's in-place loops expect. */
module Seqs {

  /** `a` can be obtained from `b` by deleting elements. */
  predicate IsSubseq<T(==)>(a: seq<T>, b: seq<T>)
    decreases |b|
  {
    |a| == 0 || (|b| > 0 && ((a[0] == b[0] && IsSubseq(a[1..], b[1..])) || IsSubseq(a, b[1..])))
  }

  /** `remove(i)`: what comes before index `i` stays put, and what came
      after it now starts at `i`. */
  lemma RemoveAt<T>(s: seq<T>, i: nat)
    requires i < |s|
    ensures (s[..i] + s[i + 1..])[..i] == s[..i]
    ensures (s[..i] + s[i + 1..])[i..] == s[i + 1..]
  {
  }

  /** Assigning index `i`: what comes before it stays put, and the suffix
      from `i` is the new element followed by the old tail. */
  lemma ReplaceAt<T>(s: seq<T>, i: nat, x: T)
    requires i < |s|
    ensures s[i := x][..i] == s[..i]
    ensures s[i := x][i..] == [x] + s[i + 1..]
  {
  }
}

=== FILE: server.dfy ===
/** The relay server (src/bin/server.rs).  Each cycle accepts exactly two
    clients, greets each with Waiting, and starts one handler per client.
    Handler 1 sends on channel 1 and receives on channel 2; handler 2 sends
    on channel 2 and receives on channel 1, so whatever one handler enqueues
    is what the other dequeues.  A handler's select loop services one ready
    source per iteration; the pair of handlers is modelled as a transition
    system whose steps are chosen freely among the ready ones. */
module Server {
  import opened Options
  import opened Enums
  import opened Select
  import opened Channel

  /** `MAX_CLIENTS`. */
  const MaxClients: nat := 2
  /** `mpsc::channel::<Message>(8)`. */
  const QueueCap: nat := 8

  /** One iteration of a handler's select loop, as a decision table. */
  function HandlerStep(e: Event): (d: Decision)
    ensures d.flow == Panic <==> e.SocketByte? && Decode(e.b).None?
    ensures d.action.Enqueue? <==> e.SocketByte? && Decode(e.b).Some? && Relayed(Decode(e.b).value)
    ensures d.action.Enqueue? ==> Decode(e.b) == Some(d.action.m)
    ensures d.action.WriteSocket? <==> e.ChanMsg? && Relayed(e.m)
    ensures d.action.WriteSocket? ==> d.action.m == e.m
    ensures d.flow == Exit <==>
      || e.SocketErr? || e.ChanClosed?
      || e == SocketByte(Encode(GameOver)) || e == ChanMsg(GameOver)
  {
    match e
    case SocketByte(b) =>
      (match Decode(b)
       case None => Decision(Idle, Panic)
       case Some(m) =>
         match m
         case Attacked => Decision(Enqueue(m), Continue)
         case GameOver => Decision(Enqueue(m), Exit)
         case _ => Decision(Idle, Continue))
    case SocketErr => Decision(Idle, Exit)
    case ChanMsg(m) =>
      (match m
       case Attacked => Decision(WriteSocket(m), Continue)
       case GameOver => Decision(WriteSocket(m), Exit)
       case _ => Decision(Idle, Continue))
    case ChanClosed => Decision(Idle, Exit)
  }

  /** A handler's life: running its loop, finished after teardown, or
      crashed by a panic (unknown byte, or a send to a closed channel). */
  datatype Phase = Running | Finished | Crashed

  /** One handler: its phase, the connection it serves, every byte written
      to that socket, whether the socket is shut, the messages it enqueued
      for the opponent, the messages taken off its inbound channel (by
      `recv` or by the teardown drain) and, of those, the ones it wrote out. */
  datatype Handler = Handler(
    phase: Phase,
    conn: nat,
    out: seq<u8>,
    shut: bool,
    relayed: seq<Message>,
    taken: seq<Message>,
    delivered: seq<Message>)

  datatype Side = One | Two

  function Other(s: Side): Side {
    if s == One then Two else One
  }

  /** The two handlers of a match and their channels; `q1` is written by
      handler 1 and read by handler 2, `q2` the other way round. */
  datatype Pair = Pair(h1: Handler, h2: Handler, q1: Chan, q2: Chan)

  function H(p: Pair, s: Side): Handler {
    if s == One then p.h1 else p.h2
  }

  /** The channel a handler sends on (`opponent_writer`). */
  function Outbox(p: Pair, s: Side): Chan {
    if s == One then p.q1 else p.q2
  }

  /** The channel a handler receives on (`my_reader`). */
  function Inbox(p: Pair, s: Side): Chan {
    Outbox(p, Other(s))
  }

  function SetH(p: Pair, s: Side, h: Handler): Pair {
    if s == One then p.(h1 := h) else p.(h2 := h)
  }

  function SetOutbox(p: Pair, s: Side, c: Chan): Pair {
    if s == One then p.(q1 := c) else p.(q2 := c)
  }

  function SetInbox(p: Pair, s: Side, c: Chan): Pair {
    SetOutbox(p, Other(s), c)
  }

  function EncodeAll(ms: seq<Message>): (bs: seq<u8>)
    ensures |bs| == |ms|
    ensures forall i :: 0 <= i < |ms| ==> bs[i] == Encode(ms[i])
  {
    if |ms| == 0 then [] else [Encode(ms[0])] + EncodeAll(ms[1..])
  }

  /** The accept loop of one cycle: takes exactly `MaxClients` connections
      from the backlog, in arrival order, and writes Waiting to each. */
  method AcceptPlayers(backlog: seq<nat>) returns (players: seq<nat>, greetings: seq<seq<u8>>)
    requires |backlog| >= MaxClients
    ensures players == backlog[..MaxClients]
    ensures |greetings| == MaxClients
    ensures forall i :: 0 <= i < MaxClients ==> greetings[i] == [Encode(Waiting)]
  {
    players := [];
    greetings := [];
    var k := 0;
    while k < MaxClients
      invariant 0 <= k <= MaxClients
      invariant players == backlog[..k]
      invariant |greetings| == k
      invariant forall i :: 0 <= i < k ==> greetings[i] == [Encode(Waiting)]
    {
      players := players + [backlog[k]];
      greetings := greetings + [[Encode(Waiting)]];
      k := k + 1;
    }
  }

  /** Two handlers started on the accepted sockets: each socket has received
      Waiting on accept and GameStart from its handler; the channels are
      fresh and nothing has been relayed. */
  function StartMatch(players: seq<nat>, greetings: seq<seq<u8>>): (p: Pair)
    requires |players| == MaxClients && |greetings| == MaxClients
    ensures p.q1 == Fresh(QueueCap) && p.q2 == Fresh(QueueCap)
    ensures p.h1.out == greetings[0] + [Encode(GameStart)]
    ensures p.h2.out == greetings[1] + [Encode(GameStart)]
    ensures p.h1.conn == players[0] && p.h2.conn == players[1]
  {
    Pair(Handler(Running, players[0], greetings[0] + [Encode(GameStart)], false, [], [], []),
         Handler(Running, players[1], greetings[1] + [Encode(GameStart)], false, [], [], []),
         Fresh(QueueCap), Fresh(QueueCap))
  }

  /** Where a handler's next event comes from. */
  datatype Source = FromSocket(r: Read) | FromQueue

  /** The event the source delivers (only meaningful when it is ready). */
  function EventAt(p: Pair, s: Side, src: Source): Event {
    match src
    case FromSocket(r) => EventOf(r)
    case FromQueue =>
      match Recv(Inbox(p, s))
      case Got(m, _) => ChanMsg(m)
      case _ => ChanClosed
  }

  /** A handler can take this step: it is running, its channel has a message
      or has ended, and a relay to the opponent is not waiting on a full
      channel. */
  predicate Ready(p: Pair, s: Side, src: Source) {
    && H(p, s).phase == Running
    && (src == FromQueue ==> !Recv(Inbox(p, s)).Pending?)
    && (HandlerStep(EventAt(p, s, src)).action.Enqueue? ==>
          !Send(Outbox(p, s), HandlerStep(EventAt(p, s, src)).action.m).Blocked?)
  }

  /** The teardown after the loop (and the drop on a panic): the inbound
      channel is closed and drained, the outbound sender is dropped, the
      socket is shut down. */
  function Teardown(p: Pair, s: Side, phase: Phase): (r: Pair)
    ensures H(r, s).phase == phase && H(r, s).shut
    ensures H(r, Other(s)) == H(p, Other(s))
    ensures Inbox(r, s) == CloseAndDrain(Inbox(p, s))
    ensures Outbox(r, s) == DropSender(Outbox(p, s))
  {
    var h := H(p, s);
    var drained := Inbox(p, s).items;
    var p1 := SetH(p, s, h.(phase := phase, shut := true, taken := h.taken + drained));
    var p2 := SetInbox(p1, s, CloseAndDrain(Inbox(p1, s)));
    SetOutbox(p2, s, DropSender(Outbox(p2, s)))
  }

  /** `recv` took the oldest message off the handler's inbound channel. */
  function Take(p: Pair, s: Side): Pair
    requires Recv(Inbox(p, s)).Got?
  {
    var got := Recv(Inbox(p, s));
    SetInbox(SetH(p, s, H(p, s).(taken := H(p, s).taken + [got.m])), s, got.c)
  }

  /** `m` was enqueued for the opponent; `c` is the channel after the send. */
  function Relay(p: Pair, s: Side, m: Message, c: Chan): Pair {
    SetOutbox(SetH(p, s, H(p, s).(relayed := H(p, s).relayed + [m])), s, c)
  }

  /** `m`'s byte was written to the handler's socket. */
  function Deliver(p: Pair, s: Side, m: Message): Pair {
    SetH(p, s, H(p, s).(out := H(p, s).out + [Encode(m)], delivered := H(p, s).delivered + [m]))
  }

  /** One iteration of handler `s`: take the event, act on it, and go on,
      tear down, or crash.  A relay that finds the opponent's channel closed
      drops the message and lets the loop decide as usual, so a GameOver the
      opponent left queued is still delivered; the source panics there
      instead (see `StepAsWritten`). */
  function Step(p: Pair, s: Side, src: Source): (r: Pair)
    requires Ready(p, s, src)
    ensures H(r, s).phase == Crashed <==> src.FromSocket? && src.r.Byte? && Decode(src.r.b).None?
    ensures H(r, Other(s)).phase == H(p, Other(s)).phase
  {
    var p1 := if src == FromQueue && Recv(Inbox(p, s)).Got? then Take(p, s) else p;
    var d := HandlerStep(EventAt(p, s, src));
    match d.action
    case Enqueue(m) =>
      (match Send(Outbox(p1, s), m)
       case Sent(c) =>
         var p2 := Relay(p1, s, m, c);
         if d.flow == Exit then Teardown(p2, s, Finished) else p2
       case _ => if d.flow == Exit then Teardown(p1, s, Finished) else p1)
    case WriteSocket(m) =>
      var p2 := Deliver(p1, s, m);
      if d.flow == Exit then Teardown(p2, s, Finished) else p2
    case Idle =>
      if d.flow == Exit then Teardown(p1, s, Finished)
      else if d.flow == Panic then Teardown(p1, s, Crashed)
      else p1
  }

  /** The iteration as the source writes it: `send(..).await.expect(..)`
      panics when the opponent's handler has already closed its receiver. */
  function StepAsWritten(p: Pair, s: Side, src: Source): (r: Pair)
    requires Ready(p, s, src)
    ensures H(r, s).phase == Crashed <==>
      || (src.FromSocket? && src.r.Byte? && Decode(src.r.b).None?)
      || (HandlerStep(EventAt(p, s, src)).action.Enqueue? && !Outbox(p, s).receiverOpen)
  {
    var d := HandlerStep(EventAt(p, s, src));
    if d.action.Enqueue? && Send(Outbox(p, s), d.action.m).SendError? then Teardown(p, s, Crashed)
    else Step(p, s, src)
  }

  predicate IsPrefix<T(==)>(a: seq<T>, b: seq<T>) {
    |a| <= |b| && b[..|a|] == a
  }

  /** Only Attacked and GameOver, and GameOver at most as the last one. */
  predicate RelayLog(ms: seq<Message>) {
    && (forall i :: 0 <= i < |ms| ==> Relayed(ms[i]))
    && (forall i :: 0 <= i < |ms| - 1 ==> ms[i] == Attacked)
  }

  predicate EndsWithGameOver(ms: seq<Message>) {
    |ms| > 0 && ms[|ms| - 1] == GameOver
  }

  /** The bytes a client receives from its handler: Waiting on accept,
      GameStart when the handler starts, then each delivered message. */
  function Greeting(): seq<u8> {
    [Encode(Waiting), Encode(GameStart)]
  }

  /** The message-flow part of the invariant for one handler: its socket
      got the greeting and then exactly the messages it delivered; it
      delivered a prefix of what it took; it relays and delivers only
      Attacked, with at most one final GameOver. */
  predicate FlowOk(h: Handler) {
    && h.out == Greeting() + EncodeAll(h.delivered)
    && IsPrefix(h.delivered, h.taken)
    && RelayLog(h.relayed) && RelayLog(h.delivered)
  }

  /** Both channels hold at most eight messages, and each holds exactly what
      its writer enqueued and its reader has not yet taken, in order. */
  predicate Queues(p: Pair) {
    && p.q1.cap == QueueCap && p.q2.cap == QueueCap
    && Bounded(p.q1) && Bounded(p.q2)
    && p.h1.relayed == p.h2.taken + p.q1.items
    && p.h2.relayed == p.h1.taken + p.q2.items
  }

  /** A running handler whose socket is open, whose inbound channel is open,
      whose sender is alive, and which has neither relayed nor delivered
      GameOver. */
  predicate LiveOk(h: Handler, inbox: Chan, outbox: Chan) {
    && h.phase == Running && !h.shut
    && inbox.receiverOpen && outbox.senderAlive
    && !EndsWithGameOver(h.relayed) && !EndsWithGameOver(h.delivered)
  }

  /** Between iterations a running handler is live and has delivered every
      message it took; a stopped one has shut its socket, closed and drained
      its inbound channel and dropped its sender. */
  predicate LifecycleOk(h: Handler, inbox: Chan, outbox: Chan) {
    && (h.phase == Running <==> !h.shut)
    && (h.phase == Running ==> LiveOk(h, inbox, outbox) && h.delivered == h.taken)
    && (h.phase != Running ==> !inbox.receiverOpen && inbox.items == [] && !outbox.senderAlive)
  }

  /** What every reachable pair satisfies. */
  predicate Inv(p: Pair) {
    && FlowOk(p.h1) && FlowOk(p.h2)
    && Queues(p)
    && LifecycleOk(p.h1, p.q2, p.q1) && LifecycleOk(p.h2, p.q1, p.q2)
  }

  /** A match starts in the invariant when both clients were greeted with
      Waiting. */
  lemma StartMatchInv(players: seq<nat>, greetings: seq<seq<u8>>)
    requires |players| == MaxClients && |greetings| == MaxClients
    requires forall i :: 0 <= i < MaxClients ==> greetings[i] == [Encode(Waiting)]
    ensures Inv(StartMatch(players, greetings))
  {
  }

  /** The two handlers play the same part: exchanging them (and their
      channels) maps a pair to its mirror image. */
  function Swap(p: Pair): (q: Pair)
    ensures Inv(q) <==> Inv(p)
  {
    Pair(p.h2, p.h1, p.q2, p.q1)
  }

  /** Handler 2's steps are handler 1's steps on the mirror image, so the
      proofs below look at handler 1 only. */
  lemma SwapStep(p: Pair, src: Source)
    requires Ready(p, Two, src)
    ensures Ready(Swap(p), One, src)
    ensures Step(p, Two, src) == Swap(Step(Swap(p), One, src))
  {
    var q := Swap(p);
    assert H(q, One) == H(p, Two) && Inbox(q, One) == Inbox(p, Two) && Outbox(q, One) == Outbox(p, Two);
    assert EventAt(q, One, src) == EventAt(p, Two, src);
    forall phase: Phase ensures Teardown(p, Two, phase) == Swap(Teardown(q, One, phase)) {
    }
    if src == FromQueue && Recv(Inbox(p, Two)).Got? {
      assert Take(p, Two) == Swap(Take(q, One));
      var m := Recv(Inbox(p, Two)).m;
      assert Deliver(Take(p, Two), Two, m) == Swap(Deliver(Take(q, One), One, m));
    }
    forall m: Message, c: Chan ensures Relay(p, Two, m, c) == Swap(Relay(q, One, m, c)) {
    }
  }

  /** The invariant with handler 1 in the middle of an iteration: it is
      live and the message flow is in order, but its lifecycle may not hold
      yet. */
  predicate Mid(p: Pair) {
    && FlowOk(p.h1) && FlowOk(p.h2) && Queues(p)
    && LifecycleOk(p.h2, p.q1, p.q2) && LiveOk(p.h1, p.q2, p.q1)
  }

  /** Taking a message leaves exactly that message to deliver. */
  lemma TakeMid(p: Pair)
    requires Inv(p) && p.h1.phase == Running && Recv(p.q2).Got?
    ensures Mid(Take(p, One))
    ensures Relayed(Recv(p.q2).m)
    ensures Take(p, One).h1.taken == Take(p, One).h1.delivered + [Recv(p.q2).m]
  {
    var m := Recv(p.q2).m;
    var h := p.h1;
    assert Take(p, One).h1 == h.(taken := h.taken + [m]);
    assert p.h2.relayed[|h.taken|] == m;
    TakeFlow(h, m);
  }

  lemma TakeFlow(h: Handler, m: Message)
    requires FlowOk(h) && h.delivered == h.taken
    ensures FlowOk(h.(taken := h.taken + [m]))
  {
    assert (h.taken + [m])[..|h.delivered|] == h.taken;
  }

  /** Relaying Attacked keeps the invariant; relaying GameOver keeps all of
      it but the relaying handler's lifecycle, which the teardown restores. */
  lemma RelayMid(p: Pair, m: Message, c: Chan)
    requires Inv(p) && p.h1.phase == Running && Relayed(m)
    requires Send(p.q1, m) == Sent(c)
    ensures var q := Relay(p, One, m, c);
      && FlowOk(q.h1) && FlowOk(q.h2) && Queues(q) && LifecycleOk(q.h2, q.q1, q.q2)
      && q.h1.phase == Running && !q.h1.shut
      && (m == Attacked ==> Inv(q))
  {
    var h := p.h1;
    assert Relay(p, One, m, c).h1 == h.(relayed := h.relayed + [m]);
    RelayFlow(h, m);
  }

  lemma RelayFlow(h: Handler, m: Message)
    requires FlowOk(h) && !EndsWithGameOver(h.relayed) && Relayed(m)
    ensures FlowOk(h.(relayed := h.relayed + [m]))
    ensures EndsWithGameOver(h.relayed + [m]) <==> m == GameOver
  {
    RelayLogSnoc(h.relayed, m);
  }

  /** Delivering the message just taken restores the invariant for Attacked;
      for GameOver all of it but the handler's lifecycle. */
  lemma DeliverMid(p: Pair, m: Message)
    requires Mid(p) && Relayed(m) && p.h1.taken == p.h1.delivered + [m]
    ensures var q := Deliver(p, One, m);
      && FlowOk(q.h1) && FlowOk(q.h2) && Queues(q) && LifecycleOk(q.h2, q.q1, q.q2)
      && q.h1.phase == Running && !q.h1.shut
      && (m == Attacked ==> Inv(q))
  {
    var h := p.h1;
    assert Deliver(p, One, m).h1 == h.(out := h.out + [Encode(m)], delivered := h.delivered + [m]);
    DeliverFlow(h, m);
  }

  lemma DeliverFlow(h: Handler, m: Message)
    requires FlowOk(h) && h.taken == h.delivered + [m]
    requires !EndsWithGameOver(h.delivered) && Relayed(m)
    ensures var h' := h.(out := h.out + [Encode(m)], delivered := h.delivered + [m]);
      FlowOk(h') && h'.delivered == h'.taken
    ensures EndsWithGameOver(h.delivered + [m]) <==> m == GameOver
  {
    assert EncodeAll(h.delivered + [m]) == EncodeAll(h.delivered) + [Encode(m)];
    RelayLogSnoc(h.delivered, m);
  }

  /** Appending a relayed message to a log that does not yet end with
      GameOver keeps it a relay log. */
  lemma RelayLogSnoc(ms: seq<Message>, m: Message)
    requires RelayLog(ms) && !EndsWithGameOver(ms) && Relayed(m)
    ensures RelayLog(ms + [m])
    ensures EndsWithGameOver(ms + [m]) <==> m == GameOver
  {
    var ms' := ms + [m];
    assert forall i :: 0 <= i < |ms'| - 1 ==> ms'[i] == ms[i];
  }

  /** Tearing down a running handler whose message flow is in order
      establishes the whole invariant. */
  lemma TeardownInv(p: Pair, phase: Phase)
    requires FlowOk(p.h1) && FlowOk(p.h2) && Queues(p) && LifecycleOk(p.h2, p.q1, p.q2)
    requires p.h1.phase == Running && !p.h1.shut && phase != Running
    ensures Inv(Teardown(p, One, phase))
  {
    var h := p.h1;
    var drained := p.q2.items;
    assert Teardown(p, One, phase).h1 == h.(phase := phase, shut := true, taken := h.taken + drained);
    TeardownFlow(h, drained, phase);
  }

  lemma TeardownFlow(h: Handler, drained: seq<Message>, phase: Phase)
    requires FlowOk(h)
    ensures FlowOk(h.(phase := phase, shut := true, taken := h.taken + drained))
  {
    assert (h.taken + drained)[..|h.taken|] == h.taken;
    PrefixTrans(h.delivered, h.taken, h.taken + drained);
  }

  /** Every step of either handler keeps the invariant. */
  lemma StepInv(p: Pair, s: Side, src: Source)
    requires Inv(p) && Ready(p, s, src)
    ensures Inv(Step(p, s, src))
  {
    if s == One {
      StepOneInv(p, src);
    } else {
      SwapStep(p, src);
      StepOneInv(Swap(p), src);
      assert Inv(Swap(Step(Swap(p), One, src)));
    }
  }

  lemma StepOneInv(p: Pair, src: Source)
    requires Inv(p) && Ready(p, One, src)
    ensures Inv(Step(p, One, src))
  {
    if src == FromQueue {
      QueueStepInv(p);
    } else {
      SocketStepInv(p, src.r);
    }
  }

  /** A message from the opponent is written out (and GameOver ends the
      handler); an ended channel ends it. */
  lemma QueueStepInv(p: Pair)
    requires Inv(p) && Ready(p, One, FromQueue)
    ensures Inv(Step(p, One, FromQueue))
  {
    if Recv(p.q2).Got? {
      var m := Recv(p.q2).m;
      TakeMid(p);
      var p1 := Take(p, One);
      DeliverMid(p1, m);
      if m == GameOver {
        TeardownInv(Deliver(p1, One, m), Finished);
      }
    } else {
      TeardownInv(p, Finished);
    }
  }

  /** A byte from the client is relayed (and GameOver ends the handler),
      ignored, or makes it panic; a read error ends it. */
  lemma SocketStepInv(p: Pair, r: Read)
    requires Inv(p) && Ready(p, One, FromSocket(r))
    ensures Inv(Step(p, One, FromSocket(r)))
  {
    var d := HandlerStep(EventOf(r));
    if d.action.Enqueue? {
      var m := d.action.m;
      match Send(p.q1, m) {
        case Sent(c) =>
          RelayMid(p, m, c);
          if m == GameOver {
            TeardownInv(Relay(p, One, m, c), Finished);
          }
        case _ =>
          if m == GameOver {
            TeardownInv(p, Finished);
          }
      }
    } else if d.flow != Continue {
      TeardownInv(p, if d.flow == Exit then Finished else Crashed);
    }
  }

  /** Each handler writes to its socket, in order, a prefix of what its
      opponent relayed: nothing is reordered, duplicated or invented. */
  lemma RelayIsFifo(p: Pair)
    requires Inv(p)
    ensures IsPrefix(p.h2.delivered, p.h1.relayed)
    ensures IsPrefix(p.h1.delivered, p.h2.relayed)
  {
    PrefixTrans(p.h2.delivered, p.h2.taken, p.h1.relayed);
    PrefixTrans(p.h1.delivered, p.h1.taken, p.h2.relayed);
  }

  lemma PrefixTrans<T>(a: seq<T>, b: seq<T>, c: seq<T>)
    requires IsPrefix(a, b) && IsPrefix(b, c)
    ensures IsPrefix(a, c)
  {
    assert c[..|a|] == c[..|b|][..|a|];
  }

  /** Both handlers of a match have returned. */
  predicate MatchOver(p: Pair) {
    p.h1.phase != Running && p.h2.phase != Running
  }

  /** When a client reports GameOver while both handlers run and its
      channel has room, its handler relays it and finishes; the opponent's
      handler, servicing its channel, then writes out everything queued
      there, GameOver last, and finishes too: the match ends cleanly on
      both sides, in the invariant. */
  lemma GameOverEndsMatch(p: Pair)
    requires Inv(p) && p.h1.phase == Running && p.h2.phase == Running && |p.q1.items| < QueueCap
    ensures Ready(p, One, FromSocket(Byte(Encode(GameOver))))
    ensures var p1 := Step(p, One, FromSocket(Byte(Encode(GameOver))));
      && p1.h1.phase == Finished && p1.h2 == p.h2
      && p1.q1.items == p.q1.items + [GameOver]
      && Inv(p1) && EndsWithGameOver(p1.q1.items)
      && var p2 := DeliverQueued(p1);
         && p2.h1 == p1.h1 && p2.h2.phase == Finished
         && p2.h1.shut && p2.h2.shut
         && p2.h2.out == p.h2.out + EncodeAll(p.q1.items + [GameOver])
         && p2.h1.relayed == p.h1.relayed + [GameOver]
         && Inv(p2) && MatchOver(p2)
  {
    GameOverLeaves(p);
    var p1 := Step(p, One, FromSocket(Byte(Encode(GameOver))));
    assert EndsWithGameOver(p1.q1.items);
    QueuedAllDelivered(p1);
  }

  /** The first half: the reporting handler relays GameOver behind what it
      already queued and finishes, leaving its opponent untouched.  A full
      channel makes the relay wait, so the step is not ready then. */
  lemma GameOverLeaves(p: Pair)
    requires Inv(p) && p.h1.phase == Running && p.h2.phase == Running
    ensures Ready(p, One, FromSocket(Byte(Encode(GameOver)))) <==> |p.q1.items| < QueueCap
    ensures |p.q1.items| < QueueCap ==>
      var p1 := Step(p, One, FromSocket(Byte(Encode(GameOver))));
      && p1.h1.phase == Finished && p1.h1.shut && p1.h2 == p.h2
      && p1.q1.items == p.q1.items + [GameOver]
      && p1.h1.relayed == p.h1.relayed + [GameOver]
      && Inv(p1)
  {
    DecodeEncode(GameOver);
    if |p.q1.items| < QueueCap {
      StepInv(p, One, FromSocket(Byte(Encode(GameOver))));
    }
  }

  /** A GameOver reported after the opponent's handler has stopped finds
      its channel closed: the corrected step drops it and finishes, while
      the source's `expect` panics. */
  lemma GameOverAfterOpponentGone(p: Pair)
    requires Inv(p) && p.h1.phase == Running && p.h2.phase != Running
    ensures Ready(p, One, FromSocket(Byte(Encode(GameOver))))
    ensures var r := Step(p, One, FromSocket(Byte(Encode(GameOver))));
      r.h1.phase == Finished && r.h1.relayed == p.h1.relayed && r.h2 == p.h2
    ensures StepAsWritten(p, One, FromSocket(Byte(Encode(GameOver)))).h1.phase == Crashed
  {
    DecodeEncode(GameOver);
  }

  /** Once a GameOver is queued for handler 2 (so handler 1 has stopped),
      one iteration on its channel writes the oldest queued message to its
      client: an Attacked keeps it running on the rest of the queue, the
      final GameOver finishes it. */
  lemma QueuedGameOverDelivered(p: Pair)
    requires Inv(p) && p.h2.phase == Running && EndsWithGameOver(p.q1.items)
    ensures p.h1.phase != Running
    ensures Ready(p, Two, FromQueue)
    ensures var r := Step(p, Two, FromQueue);
      && r.h1 == p.h1 && Inv(r)
      && r.h2.out == p.h2.out + [Encode(p.q1.items[0])]
      && (|p.q1.items| == 1 ==> r.h2.phase == Finished)
      && (|p.q1.items| > 1 ==> r.h2.phase == Running && r.q1.items == p.q1.items[1..])
  {
    var items := p.q1.items;
    assert p.h1.relayed[|p.h1.relayed| - 1] == items[|items| - 1];
    assert p.h1.phase != Running;
    assert p.h1.relayed[|p.h2.taken|] == items[0];
    if |items| > 1 {
      assert items[0] == Attacked;
    }
    StepInv(p, Two, FromQueue);
  }

  /** Handler 2 services its channel until it finishes: every iteration
      takes the next queued message. */
  function DeliverQueued(p: Pair): (r: Pair)
    requires Inv(p) && p.h2.phase == Running && EndsWithGameOver(p.q1.items)
    decreases |p.q1.items|
  {
    QueuedGameOverDelivered(p);
    var q := Step(p, Two, FromQueue);
    if q.h2.phase == Running then
      assert q.q1.items == p.q1.items[1..];
      DeliverQueued(q)
    else q
  }

  /** Everything queued for handler 2 behind a GameOver reaches its client,
      in order, and handler 2 then finishes: the match is over. */
  lemma {:induction false} QueuedAllDelivered(p: Pair)
    requires Inv(p) && p.h2.phase == Running && EndsWithGameOver(p.q1.items)
    ensures var r := DeliverQueued(p);
      && r.h1 == p.h1 && r.h2.phase == Finished
      && r.h2.out == p.h2.out + EncodeAll(p.q1.items)
      && Inv(r) && MatchOver(r)
    decreases |p.q1.items|
  {
    QueuedGameOverDelivered(p);
    var q := Step(p, Two, FromQueue);
    EncodeAllStep(p.h2.out, q.h2.out, p.q1.items);
    if q.h2.phase == Running {
      QueuedAllDelivered(q);
    }
  }

  /** Writing the first queued message's byte leaves the rest to write. */
  lemma EncodeAllStep(out: seq<u8>, out': seq<u8>, ms: seq<Message>)
    requires |ms| > 0 && out' == out + [Encode(ms[0])]
    ensures out + EncodeAll(ms) == out' + EncodeAll(ms[1..])
    ensures |ms| == 1 ==> out + EncodeAll(ms) == out'
  {
    var rest := EncodeAll(ms[1..]);
    assert EncodeAll(ms) == [Encode(ms[0])] + rest;
    AppendAssoc(out, [Encode(ms[0])], rest);
    if |ms| == 1 {
      assert rest == [];
    }
  }

  lemma AppendAssoc<T>(a: seq<T>, b: seq<T>, c: seq<T>)
    ensures a + (b + c) == (a + b) + c
  {
  }

  /** The accept loop of the next cycle has the server either serving a
      match or gone down after a handler panicked. */
  datatype Supervisor = Serving(cycle: nat, pair: Pair) | Down

  /** The end of a cycle: `handler.await.unwrap()` re-raises a handler's
      panic, taking the server down; otherwise the next cycle accepts the
      first two waiting clients and starts a fresh match in the invariant. */
  function Conclude(cycle: nat, p: Pair, backlog: seq<nat>): (r: Supervisor)
    requires MatchOver(p) && |backlog| >= MaxClients
    ensures r.Serving? <==> p.h1.phase == Finished && p.h2.phase == Finished
    ensures r.Serving? ==>
      && r.cycle == cycle + 1
      && r.pair.h1.conn == backlog[0] && r.pair.h2.conn == backlog[1]
      && r.pair.q1 == Fresh(QueueCap) && r.pair.q2 == Fresh(QueueCap)
      && r.pair.h1.out == Greeting() && r.pair.h2.out == Greeting()
      && Inv(r.pair)
  {
    if p.h1.phase == Finished && p.h2.phase == Finished then
      var greetings := [[Encode(Waiting)], [Encode(Waiting)]];
      StartMatchInv(backlog[..MaxClients], greetings);
      Serving(cycle + 1, StartMatch(backlog[..MaxClients], greetings))
    else
      Down
  }

  // ---------------------------------------------------------------------
  // A handler left alone after its opponent finished

  /** Once handler 1 has finished, handler 2's client may still report an
      attack before handler 2 services the GameOver waiting on its channel
      (`select!` picks among ready branches at random).  As written, the
      relay hits the closed channel, the handler panics, and the panic
      re-raised by `handler.await.unwrap()` takes the server down. */
  lemma AsWrittenCrashes(cycle: nat, p: Pair, backlog: seq<nat>)
    requires Inv(p) && p.h1.phase == Finished && p.h2.phase == Running
    requires |backlog| >= MaxClients
    ensures Ready(p, Two, FromSocket(Byte(Encode(Attacked))))
    ensures var r := StepAsWritten(p, Two, FromSocket(Byte(Encode(Attacked))));
      && r.h2.phase == Crashed && MatchOver(r)
      && Conclude(cycle, r, backlog) == Down
  {
    DecodeEncode(Attacked);
  }

  /** With the corrected step the same attack is dropped: handler 2 keeps
      running, with its channel and its client's socket untouched. */
  lemma OpponentGoneKeepsRunning(p: Pair)
    requires Inv(p) && p.h1.phase == Finished && p.h2.phase == Running
    ensures Ready(p, Two, FromSocket(Byte(Encode(Attacked))))
    ensures Step(p, Two, FromSocket(Byte(Encode(Attacked)))) == p
  {
    DecodeEncode(Attacked);
  }

  /** The situation is reachable from the start of every match: client 1
      reports GameOver, handler 1 relays it and finishes, and client 2's
      attack then crashes handler 2 while the GameOver is still queued. */
  lemma AttackAfterGameOverCrashes(players: seq<nat>, backlog: seq<nat>)
    requires |players| == MaxClients && |backlog| >= MaxClients
    ensures var p0 := StartMatch(players, [[Encode(Waiting)], [Encode(Waiting)]]);
      && Ready(p0, One, FromSocket(Byte(Encode(GameOver))))
      && var p1 := Step(p0, One, FromSocket(Byte(Encode(GameOver))));
         && p1.q1.items == [GameOver]
         && Ready(p1, Two, FromSocket(Byte(Encode(Attacked))))
         && Conclude(0, StepAsWritten(p1, Two, FromSocket(Byte(Encode(Attacked)))), backlog) == Down
  {
    var greetings := [[Encode(Waiting)], [Encode(Waiting)]];
    var p0 := StartMatch(players, greetings);
    StartMatchInv(players, greetings);
    GameOverLeaves(p0);
    AsWrittenCrashes(0, Step(p0, One, FromSocket(Byte(Encode(GameOver)))), backlog);
  }

  /** The corrected step on the same run: client 2's attack is dropped,
      handler 2 then takes the queued GameOver, writes byte 2 to client 2
      (which therefore wins) and finishes; the match ends in the invariant
      and the next cycle starts. */
  lemma AttackAfterGameOverRelays(players: seq<nat>, backlog: seq<nat>)
    requires |players| == MaxClients && |backlog| >= MaxClients
    ensures var p0 := StartMatch(players, [[Encode(Waiting)], [Encode(Waiting)]]);
      && Ready(p0, One, FromSocket(Byte(Encode(GameOver))))
      && var p1 := Step(p0, One, FromSocket(Byte(Encode(GameOver))));
         && Ready(p1, Two, FromSocket(Byte(Encode(Attacked))))
         && var p2 := Step(p1, Two, FromSocket(Byte(Encode(Attacked))));
            && Ready(p2, Two, FromQueue)
            && var p3 := Step(p2, Two, FromQueue);
               && p3.h2.out == Greeting() + [Encode(GameOver)]
               && p3.h1.phase == Finished && p3.h2.phase == Finished
               && Inv(p3)
               && Conclude(0, p3, backlog).Serving?
  {
    var greetings := [[Encode(Waiting)], [Encode(Waiting)]];
    var p0 := StartMatch(players, greetings);
    StartMatchInv(players, greetings);
    GameOverLeaves(p0);
    var p1 := Step(p0, One, FromSocket(Byte(Encode(GameOver))));
    OpponentGoneKeepsRunning(p1);
    assert EndsWithGameOver(p1.q1.items);
    QueuedGameOverDelivered(p1);
  }


  /** The source's transition system keeps the invariant too: a handler that
      panics on a failed relay is torn down like any stopped handler. */
  lemma StepAsWrittenInv(p: Pair, s: Side, src: Source)
    requires Inv(p) && Ready(p, s, src)
    ensures Inv(StepAsWritten(p, s, src))
  {
    var d := HandlerStep(EventAt(p, s, src));
    if d.action.Enqueue? && Send(Outbox(p, s), d.action.m).SendError? {
      if s == One {
        TeardownInv(p, Crashed);
      } else {
        var q := Swap(p);
        assert Teardown(p, Two, Crashed) == Swap(Teardown(q, One, Crashed));
        TeardownInv(q, Crashed);
      }
    } else {
      StepInv(p, s, src);
    }
  }
}

=== FILE: tempo.dfy ===
/** The timing both engines share: a 60 s round accounted in 100 ms ticks,
    the fixed 0.1 step of `move_words`, and the base of `speed_factor`. */
module Tempo {

  /** A round lasts 60 s (`Duration::from_secs(60)`). */
  const TimeLimitMs: nat := 60_000
  /** Each `update` accounts for 100 ms (`Duration::from_millis(100)`). */
  const TickMs: nat := 100
  /** The fixed step of `move_words`. */
  const Drift: real := 0.1
  /** `speed_factor` is this plus a thousandth of the score. */
  const BaseSpeed: real := 0.1

  /** The elapsed-time counter after one `update`: 100 ms more while the
      limit has not been reached, unchanged from then on. */
  function NextElapsed(e: nat): (r: nat)
    ensures e < TimeLimitMs ==> r == e + TickMs
    ensures e >= TimeLimitMs ==> r == e
  {
    if e >= TimeLimitMs then e else e + TickMs
  }

  /** A counter that is a multiple of 100 ms within the limit. */
  predicate ClockOk(e: nat) {
    e <= TimeLimitMs && e % TickMs == 0
  }

  /** One more tick keeps the counter a multiple of 100 within the limit. */
  lemma TickFits(e: nat)
    requires ClockOk(e)
    ensures ClockOk(NextElapsed(e))
  {
    if e < TimeLimitMs {
      var k := e / TickMs;
      assert e == TickMs * k;
      assert k < 600;
    }
  }

  function Min(a: nat, b: nat): nat {
    if a <= b then a else b
  }

  /** `speed_factor` after a tick, in real arithmetic. */
  function SpeedFor(score: int): real {
    BaseSpeed + score as real / 1000.0
  }
}

=== FILE: text.dfy ===
/** Text helpers with the meaning Rust gives them: `String::len` counts
    UTF-8 bytes, and `{}` formats an integer in decimal. */
module Text {

  /** Number of bytes UTF-8 spends on one scalar value. */
  function CharBytes(c: char): (n: nat)
    ensures 1 <= n <= 4
    ensures c as int < 0x80 <==> n == 1
  {
    if c as int < 0x80 then 1
    else if c as int < 0x800 then 2
    else if c as int < 0x1_0000 then 3
    else 4
  }

  /** `String::len`: the UTF-8 byte length of a string. */
  function ByteLen(s: string): (n: nat)
    ensures |s| <= n <= 4 * |s|
    ensures n == 0 <==> |s| == 0
  {
    if |s| == 0 then 0 else CharBytes(s[0]) + ByteLen(s[1..])
  }

  predicate IsDigit(c: char) {
    '0' <= c <= '9'
  }

  function DigitChar(d: nat): (c: char)
    requires d < 10
    ensures IsDigit(c)
  {
    "0123456789"[d]
  }

  function DigitValue(c: char): (d: nat)
    requires IsDigit(c)
    ensures d < 10
  {
    (c as int - '0' as int) as nat
  }

  /** Decimal digits of a natural number, most significant first. */
  function NatToString(n: nat): (s: string)
    ensures |s| >= 1
    ensures forall i :: 0 <= i < |s| ==> IsDigit(s[i])
    ensures |s| > 1 ==> s[0] != '0'
  {
    if n < 10 then [DigitChar(n)] else NatToString(n / 10) + [DigitChar(n % 10)]
  }

  /** What the digits denote. */
  function DigitsValue(s: string): nat
    requires forall i :: 0 <= i < |s| ==> IsDigit(s[i])
  {
    if |s| == 0 then 0 else 10 * DigitsValue(s[..|s| - 1]) + DigitValue(s[|s| - 1])
  }

  /** Rust's `{}` for an integer: a minus sign, then the magnitude's digits. */
  function IntToString(n: int): (s: string)
    ensures IntText(s)
    ensures n < 0 <==> s[0] == '-'
  {
    if n < 0 then "-" + NatToString(-n) else NatToString(n)
  }

  /** An optional minus sign followed by decimal digits. */
  predicate IntText(s: string) {
    && |s| >= 1
    && (s[0] == '-' ==> forall i :: 1 <= i < |s| ==> IsDigit(s[i]))
    && (s[0] != '-' ==> forall i :: 0 <= i < |s| ==> IsDigit(s[i]))
  }

  /** Reads back a string produced by IntToString. */
  function ParseInt(s: string): int
    requires IntText(s)
  {
    if s[0] == '-' then -(DigitsValue(s[1..]) as int) else DigitsValue(s)
  }

  lemma DigitRoundTrip(d: nat)
    requires d < 10
    ensures DigitValue(DigitChar(d)) == d
  {
  }

  /** The digits of n denote n. */
  lemma {:induction false} NatToStringValue(n: nat)
    ensures DigitsValue(NatToString(n)) == n
  {
    var s := NatToString(n);
    if n < 10 {
      DigitRoundTrip(n);
    } else {
      NatToStringValue(n / 10);
      DigitRoundTrip(n % 10);
      assert s[..|s| - 1] == NatToString(n / 10);
    }
  }

  /** The formatted integer reads back as the same integer. */
  lemma IntToStringRoundTrip(n: int)
    ensures ParseInt(IntToString(n)) == n
  {
    if n < 0 {
      var digits := NatToString(-n);
      var s := "-" + digits;
      assert s[1..] == digits;
      NatToStringValue(-n);
      assert ParseInt(s) == -(DigitsValue(digits) as int);
    } else {
      var digits := NatToString(n);
      assert IsDigit(digits[0]);
      NatToStringValue(n);
    }
  }
}

=== FILE: words.dfy ===
/** The falling word of the networked client's engine (src/game/word.rs):
    a column, a row, the text and a colour that the engine never reads. */
module Words {
  import opened Enums

  datatype Word = Word(x: real, y: real, text: string, color: WordColor)

  /** `Word::new`: the getters return exactly what was passed in. */
  function New(x: real, y: real, text: string, color: WordColor): (w: Word)
    ensures w.x == x && w.y == y && w.text == text && w.color == color
  {
    Word(x, y, text, color)
  }

  /** `set_y`: replaces the row and nothing else. */
  function SetY(w: Word, y: real): (r: Word)
    ensures r.y == y
    ensures r.x == w.x && r.text == w.text && r.color == w.color
  {
    w.(y := y)
  }

  /** Everything the public interface lets a caller do to a word.  The
      getters read a field and leave the word as it was. */
  datatype Op = SetRow(y: real) | GetX | GetY | GetText | GetColor

  function Apply(w: Word, op: Op): Word {
    match op
    case SetRow(y) => SetY(w, y)
    case _ => w
  }

  /** A sequence of operations applied in order. */
  function Run(w: Word, ops: seq<Op>): Word
    decreases |ops|
  {
    if |ops| == 0 then w else Run(Apply(w, ops[0]), ops[1..])
  }

  /** The row after one operation that started from row `y`. */
  function RowAfter(op: Op, y: real): real {
    if op.SetRow? then op.y else y
  }

  /** The row after the operations: the last one set, or the original. */
  function LastRow(ops: seq<Op>, y: real): real {
    if |ops| == 0 then y
    else if ops[|ops| - 1].SetRow? then ops[|ops| - 1].y
    else LastRow(ops[..|ops| - 1], y)
  }

  /** No operation changes x, text or colour after construction, and the row
      is whatever the last `set_y` wrote. */
  lemma {:induction false} RunKeepsIdentity(w: Word, ops: seq<Op>)
    ensures Run(w, ops).x == w.x
    ensures Run(w, ops).text == w.text
    ensures Run(w, ops).color == w.color
    ensures Run(w, ops).y == LastRow(ops, w.y)
    decreases |ops|
  {
    if |ops| > 0 {
      RunKeepsIdentity(Apply(w, ops[0]), ops[1..]);
      LastRowShift(ops, w.y);
    }
  }

  /** Peeling the first operation off `LastRow`. */
  lemma {:induction false} LastRowShift(ops: seq<Op>, y: real)
    requires |ops| > 0
    ensures LastRow(ops, y) == LastRow(ops[1..], RowAfter(ops[0], y))
    decreases |ops|
  {
    if |ops| > 1 && !ops[|ops| - 1].SetRow? {
      LastRowShift(ops[..|ops| - 1], y);
      assert ops[..|ops| - 1][1..] == ops[1..][..|ops[1..]| - 1];
    }
  }
}
